=== FILE: README.md ===
# pyleup trace builder in Dafny

pyleup.py runs a Python script under `sys.settrace` and writes an HTML report.
The report has one row per function call, indented by call depth. Each row
carries an event log of `def@line`, sampled line numbers, `__child__` spacers
and `return`. Every entry except the spacer points at a snapshot record
holding the locals (through `safe_repr`) and tracemalloc counters.

This project models the logic behind that report:

- **Path filter** (`PathFilter`). `is_stdlib` and the nested `want` decide
  whether a frame's file is traced. Paths are strings. The target script, its
  directory, `os.sep` and the two `sysconfig` locations are configuration
  values.
- **`safe_repr`** (`SafeRepr`). Truncation to `maxlen` characters plus `…`,
  or the `<unrepr T>` placeholder when `repr` raises. What `repr` produced is
  an input.
- **Snapshot records** (`Snapshots`). How `take_snapshot` assembles a record
  from a frame and from readings of the clock and tracemalloc. Those readings
  are inputs (`Probe`). This covers the locals, the top twenty allocation
  sites and the caught failure of the heavy step.
- **The tracer state machine**, in two layers:
  - `TraceSpec` defines the state as a value: nodes, stack of ids, next id,
    line counter and snapshot log. It defines the call, line and return steps
    on that value and the invariants of reachable states. `TraceProofs` and
    `TraceRuns` prove the invariants for one step and for whole runs.
  - `Tracer` is the program's own imperative form. `Node` objects are shared
    between the `nodes` list and the `stack`. `TraceBuilder` holds the
    closure variables and has the callback and its branches as methods. Each
    method is proved to perform the matching step on `State()`, the value the
    objects denote, and the callback keeps `Valid()`.
- **Row assembly** (`Report` and `TraceBuilder.AssembleRows`). One row per
  node, with the duration `(end_ns or start_ns) - start_ns` in integer
  nanoseconds.
- **Worked runs** (`Scenarios`). A call nested in a call, and events from
  refused files.

Where a description of the tool and the code differ, the model follows the
code:

- **Outer log.** An outer function's log is sometimes described as holding
  only its definition and return entries. The code also appends the
  `("__child__", None)` spacer to the parent when a child is entered
  (pyleup.py:170-171). `Scenarios.NestedCalls` shows the resulting three
  entries.
- **Zero end time.** Python's `or` treats an `end_ns` of 0 as missing, so
  such a node has duration 0. `Report.Duration` keeps this.
- **Placeholder length.** The `maxlen + 1` bound of `safe_repr` holds only
  when `repr` succeeds. The `<unrepr T>` placeholder is not truncated.

## Model

| member | source | states |
|---|---|---|
| PathFilter.IsStdlib | pyleup.py:31-38 | a path is standard library exactly when it is empty or lies beneath one of the two stdlib locations, i.e. starts with the location immediately followed by the separator |
| PathFilter.BeneathIsPrefix | pyleup.py:38 | starting with `dir + os.sep` is the same as having `dir` and then the separator as the first characters |
| PathFilter.StdlibPathsAreStdlib | pyleup.py:38 | every path made of a stdlib location, the separator and any rest is standard library |
| PathFilter.StdlibSiblingNotStdlib | pyleup.py:38 | a path that extends a stdlib location's name with anything but the separator (and is not beneath the other location) is not standard library |
| PathFilter.UnderRoot | pyleup.py:89 | a path passes the root rule exactly when it is the script itself or lies beneath the script's directory (the directory immediately followed by the separator) |
| PathFilter.BeneathJoin | pyleup.py:89 | a directory, the separator and any rest always lie beneath that directory |
| PathFilter.UnderRootPaths | pyleup.py:89 | the script itself and every path made of its directory, the separator and any rest pass the root rule |
| PathFilter.Want | pyleup.py:83-93 | a traced path is non-empty and is the target script or lies strictly under its directory |
| PathFilter.WantCharacterised | pyleup.py:83-93 | `want` holds exactly when the path is non-empty, under the root, and either --include-stdlib is set or the path is not in the standard library |
| PathFilter.EmptyPathRejected | pyleup.py:85-86 | the empty path is never traced |
| PathFilter.OutsideRootRejected | pyleup.py:89-90 | a path outside the root is rejected, with or without --include-stdlib |
| PathFilter.StdlibRejectedByDefault | pyleup.py:91-92 | without --include-stdlib a standard-library path is rejected |
| PathFilter.IncludeStdlibIsRootRule | pyleup.py:83-93 | with --include-stdlib the decision is the root rule alone |
| PathFilter.IncludeStdlibWidens | pyleup.py:91-93 | setting --include-stdlib never rejects a path that was accepted |
| PathFilter.SiblingDirectoryRejected | pyleup.py:89 | for every configuration, a path made of the root followed by anything that does not start with the separator (a sibling whose name extends the root's) is rejected, unless it is the script itself |
| PathFilter.EmptyStdlibEntryCoversAbsolutePaths | pyleup.py:31-38 | with empty stdlib entries the prefix is the bare separator, so every absolute path counts as standard library |
| SafeRepr.Placeholder | pyleup.py:47 | the placeholder is `<unrepr `, the type name, and `>`, so the type name can be read back from it |
| SafeRepr.Render | pyleup.py:43-50 | a successful repr is kept when at most `maxlen` long, and is otherwise its first `maxlen` characters followed by `…`, so it is never longer than `maxlen + 1`; a raising repr gives `<unrepr T>` |
| SafeRepr.RenderUnchangedIff | pyleup.py:48-50 | the rendering equals the repr exactly when the repr is short enough, or is one character over and already ends in `…` |
| SafeRepr.RenderIdempotent | pyleup.py:43-50 | rendering a rendering again with the same bound changes nothing |
| Snapshots.Sites | pyleup.py:135-144 | no more sites than statistics; every statistic with a traceback gives its site and every site comes from such a statistic |
| Snapshots.SitesSingle | pyleup.py:135-144 | one statistic gives its first-frame site exactly when it has a traceback, and nothing otherwise |
| Snapshots.SitesAppend | pyleup.py:135-144 | the sites of a concatenation are the sites of each part, concatenated: together with `SitesSingle` this fixes the order and the repetitions of the result |
| Snapshots.TopSites | pyleup.py:134-144 | the sites of the first twenty statistics (all of them when there are fewer), so at most twenty, in tracemalloc's order |
| Snapshots.RenderLocals | pyleup.py:127 | one entry per local, names and order kept, each value the local's `safe_repr` with the default bound: at most 201 characters when repr succeeds, the placeholder when it raises |
| Snapshots.HeapPart | pyleup.py:131-146 | the heavy part is absent exactly when --heap-stats is off; on success it is the top sites of the statistics; a failure is recorded as the rendered exception instead of propagating |
| Snapshots.MakeSnapshot | pyleup.py:117-129 | the record carries the given kind, node id and line number, the frame's file and function name, and one rendered entry per local |
| Snapshots.SnapshotPayload | pyleup.py:117-149 | a record holds the probe's timestamp and memory counters, the frame's locals rendered by `safe_repr` (name and order kept), and the heavy part given by `HeapPart`: absent without --heap-stats, the top sites on success, and, when the heavy step failed, the rendered exception recorded in the record instead of being raised |
| TraceSpec.Initial | pyleup.py:109-113 | the state before the first event, with ids starting at 1 and indices at 0, satisfies the invariants and the duration property |
| TraceSpec.CallStep | pyleup.py:159-176 | one new open node with the next id and the stack height as depth, pushed; one new "call" record owned by it; the next id advances and the counter is untouched |
| TraceSpec.LineStep | pyleup.py:178-184 | no node is added and the stack and next id are kept; the counter advances only with a node open and sampling on, and one record is added exactly when the new counter is then a multiple of N |
| TraceSpec.ReturnStep | pyleup.py:186-192 | with an empty stack nothing changes; otherwise the stack is popped, one "return" record of the top node is added and the top node's end time is `now` |
| TraceSpec.Step | pyleup.py:151-194 | a refused file or an unhandled event kind changes nothing, and no event shrinks the node list, the record log, the next id or the counter |
| TraceSpec.Run | pyleup.py:151-194 | over any sequence of events the node list, the record log, the next id and the counter only grow |
| TraceProofs.CallStepInv | pyleup.py:159-176 | an admitted call keeps the invariants: depth equals stack position, the parent is the entry below, ids are creation positions plus one, every handle resolves to a record of its node and kind, and a node is open exactly while on the stack |
| TraceProofs.LineStepInv | pyleup.py:178-184 | an admitted line event keeps the invariants |
| TraceProofs.ReturnStepInv | pyleup.py:186-192 | an admitted return keeps the invariants, and with a clock no earlier than any start, finished nodes do not end before they start |
| TraceProofs.StepInv | pyleup.py:151-194 | every invocation of the callback keeps the invariants |
| TraceRuns.RunInv | pyleup.py:151-194 | the invariants hold after any sequence of callbacks |
| TraceRuns.ReachableInv | pyleup.py:109-194 | every state reached from the initial one satisfies the invariants |
| TraceRuns.StepExtends | pyleup.py:148-192 | one callback only appends to the snapshot log and the node list, only extends logs, and leaves finished nodes untouched |
| TraceRuns.RunExtends | pyleup.py:148-192 | over any run the snapshot log is append-only, nodes keep their identity, parent, depth and start, and a finished node never changes again |
| TraceRuns.HandlesStable | pyleup.py:148-149 | an index stored in a node's log stays in range and keeps pointing at the same record after any further events |
| TraceRuns.RunDurations | pyleup.py:186-192 | with a clock that never goes backwards, no finished node ends before it started |
| TraceRuns.DepthCountsAncestors | pyleup.py:160-166 | a node's depth is the number of its ancestors |
| TraceRuns.CallEffect | pyleup.py:159-176 | the open parent gains exactly the spacer entry and every other node is unchanged; the new node has the next id, the top as parent, the stack height as depth, the clock reading as start, no end, and a log that is only its definition entry pointing at the call record appended to the log |
| TraceRuns.ReturnEffect | pyleup.py:186-192 | with a node open, the top node gets the clock reading as end and exactly one return entry pointing at the return record appended to the log; every other node is unchanged and the top is popped |
| TraceRuns.LineSampling | pyleup.py:178-184 | with a node open and sampling on, the counter advances by one, and a line record plus a log entry on the top node are added exactly when the new counter is a multiple of N; nothing else changes |
| TraceRuns.LineIgnored | pyleup.py:178-179 | a line event with an empty stack or with sampling off changes nothing |
| TraceRuns.LineRunSampling | pyleup.py:178-184 | the counter is shared by the whole run: K line events from counter L produce (L+K)/N - L/N records |
| Report.Duration | pyleup.py:208 | an open node lasts 0, a finished node lasts end minus start, and an end reading of 0 counts as missing |
| Report.RowOf | pyleup.py:209-217 | a row copies its node's id, name, file, first line, depth and log, its duration is the node's `Duration`, and an open node's row lasts 0 |
| Report.Rows | pyleup.py:206-217 | one row per node, the row of position `i` being the row of node `i` |
| Report.RowsResolve | pyleup.py:206-217 | one row per node in creation order with ids 1, 2, …, copying depth, name, file, first line and log; every log starts with its definition entry, every index resolves to a record of that row's node, and a row still on the stack has duration 0 |
| Report.RowDurations | pyleup.py:207-208 | with finished nodes ending no earlier than they started, no row has a negative duration |
| Scenarios.NestedCalls | pyleup.py:159-192 | after outer calls inner and both return, outer's log is definition, spacer, return; inner is outer's child at depth 1; the records are call, call, return, return |
| Scenarios.RefusedFilesChangeNothing | pyleup.py:155-157 | events from refused files leave the state unchanged |
| Tracer.Node.constructor | pyleup.py:96-107 | a new node has the given identity, parent, depth and start, no end time and an empty log |
| Tracer.TraceBuilder.constructor | pyleup.py:109-113 | the builder starts empty, with the next id 1, and satisfies `Valid()` |
| Tracer.TraceBuilder.TakeSnapshot | pyleup.py:117-149 | appends exactly one record and returns its index, the old length of the log |
| Tracer.TraceBuilder.Trace | pyleup.py:151-194 | the decision is `want`'s, a refused event changes nothing, every event performs `Step` on `State()` and keeps `Valid()`, and with a monotonic clock durations stay non-negative |
| Tracer.TraceBuilder.TraceCall | pyleup.py:159-176 | an admitted call performs `CallStep` on `State()` and keeps `Valid()`, parent references included; finished nodes keep their durations |
| Tracer.TraceBuilder.TraceLine | pyleup.py:178-184 | an admitted line event performs `LineStep` on `State()` and keeps `Valid()` and the durations |
| Tracer.TraceBuilder.TraceReturn | pyleup.py:186-192 | an admitted return performs `ReturnStep` on `State()` and keeps `Valid()`; with a clock no earlier than any start, no finished node ends before it started |
| Tracer.TraceBuilder.AppendTop | pyleup.py:171 | appending to `stack[-1].lines` (also lines 183 and 190) changes the value of the top node's log only |
| Tracer.TraceBuilder.SetTopEnd | pyleup.py:189 | setting `stack[-1].end_ns` changes the value of the top node's end time only |
| Tracer.TraceBuilder.OnCall | pyleup.py:159-176 | performs the call step: one fresh node whose parent is the old top object, appended and pushed; the parent's log gains the spacer; the new log holds the definition entry at the new record's index |
| Tracer.TraceBuilder.Enter | pyleup.py:172-175 | the new node is appended and pushed, one "call" record is appended, and the node's log is exactly its definition entry pointing at that record; the other nodes' values are unchanged |
| Tracer.TraceBuilder.OnLine | pyleup.py:178-184 | performs the line step on `State()`: counter, optional line record and entry on the top node |
| Tracer.TraceBuilder.OnReturn | pyleup.py:186-192 | performs the return step: the top node gets its end time and return entry, the stack is popped by one, and `nodes` is unchanged |
| Tracer.TraceBuilder.AssembleRows | pyleup.py:206-217 | the loop's rows are exactly `Rows` of the nodes' values |
| Tracer.StackShape | pyleup.py:160-173 | as objects, every stack entry is a recorded node at depth equal to its position, and each entry's parent is the object below it |

## Left out

- Argument parsing, the usage and not-found exits, `runpy.run_path` and installing and removing the trace hook (pyleup.py:55-81, 196-203). The interpreter's rule that returning None stops local tracing of a frame is not modelled. Only the per-event decision is.
- `os.path.abspath` and `sysconfig.get_paths()` (pyleup.py:34-37, 87). Paths are taken as already absolute. The stdlib locations and `os.sep` are fields of `FilterConfig`.
- Calling `repr` (pyleup.py:45). Its outcome, the text or the raising value's type name, is an input.
- tracemalloc, `time.time()` and `time.perf_counter_ns()` (pyleup.py:119-121, 132-134, 167, 189). Their readings are parameters: `Probe` and `now`. The statistics are taken as given in the order tracemalloc returns them.
- The float division by 1e6 into milliseconds (pyleup.py:208). Durations stay integer nanoseconds.
- HTML, CSS and JavaScript output, JSON embedding, file writing and `esc` (pyleup.py:40-41, 220-307).
- Frame objects are reduced to the fields the tracer reads (`Frame`). The `arg` parameter of the callback is unused by the source and is left out.
- SafeRepr.Render: `maxlen` is a natural number. Python also accepts a negative bound, which the program never passes.
- Tracer.TraceBuilder.OnCall, OnLine and OnReturn require only `Linked()`, the agreement between objects and ids (OnCall also requires that the next id is one past the number of nodes). The invariant `Valid()` is kept by `TraceCall`, `TraceLine` and `TraceReturn`, which run them and apply the value-level lemmas, and through these by `Trace`, the callback itself.

=== FILE: path_filter.dfy ===
/**
  The path filter of pyleup.py: `is_stdlib` (lines 31-38) and the nested
  `want` (lines 83-93).

  Paths are taken to be absolute already (`os.path.abspath` is not part of
  this model), and the two standard-library locations that
  `sysconfig.get_paths()` reports, as well as `os.sep`, are configuration
  values rather than queries of the running interpreter.
*/
module PathFilter {

  /** The "stdlib" and "platstdlib" entries of `sysconfig.get_paths()`; a
      missing entry reads as the empty string. */
  datatype StdlibPaths = StdlibPaths(stdlib: string, platstdlib: string)

  /** Everything `want` consults besides the path itself. */
  datatype FilterConfig = FilterConfig(
    progAbs: string,        // absolute path of the target script
    targetRoot: string,     // the directory that contains it
    sep: string,            // os.sep
    includeStdlib: bool,    // --include-stdlib
    std: StdlibPaths)

  /** Python's `str.startswith`. */
  predicate StartsWith(s: string, prefix: string) {
    prefix <= s
  }

  /** `path` lies strictly beneath directory `dir`: it starts with `dir`
      and then the separator. */
  predicate Beneath(path: string, dir: string, sep: string) {
    |path| >= |dir| + |sep| && path[..|dir|] == dir && path[|dir|..|dir| + |sep|] == sep
  }

  /** `is_stdlib`: the empty path counts as standard library; otherwise a
      path lies in the standard library exactly when it lies beneath either
      stdlib location. */
  function IsStdlib(path: string, std: StdlibPaths, sep: string): (r: bool)
    ensures path == "" ==> r
    ensures r <==> path == "" || Beneath(path, std.stdlib, sep) || Beneath(path, std.platstdlib, sep)
  {
    BeneathIsPrefix(path, std.stdlib, sep);
    BeneathIsPrefix(path, std.platstdlib, sep);
    path == "" || StartsWith(path, std.stdlib + sep) || StartsWith(path, std.platstdlib + sep)
  }

  /** The root rule of `want`: the target script itself, or anything strictly
      beneath its directory. */
  function UnderRoot(cfg: FilterConfig, path: string): (r: bool)
    ensures r <==> path == cfg.progAbs || Beneath(path, cfg.targetRoot, cfg.sep)
  {
    BeneathIsPrefix(path, cfg.targetRoot, cfg.sep);
    path == cfg.progAbs || StartsWith(path, cfg.targetRoot + cfg.sep)
  }

  /** Starting with `dir + sep` is lying beneath `dir`. */
  lemma BeneathIsPrefix(path: string, dir: string, sep: string)
    ensures StartsWith(path, dir + sep) <==> Beneath(path, dir, sep)
  {
    if Beneath(path, dir, sep) {
      assert path[..|dir| + |sep|] == path[..|dir|] + path[|dir|..|dir| + |sep|];
    }
  }

  /** Every path built as a directory, the separator and a rest lies
      beneath that directory. */
  lemma BeneathJoin(dir: string, sep: string, rest: string)
    ensures Beneath(dir + sep + rest, dir, sep)
  {
    var path := dir + sep + rest;
    assert path[..|dir|] == dir;
    assert path[|dir|..|dir| + |sep|] == sep;
  }

  /** The script itself and every path beneath its directory pass the root
      rule. */
  lemma UnderRootPaths(cfg: FilterConfig, rest: string)
    ensures UnderRoot(cfg, cfg.progAbs)
    ensures UnderRoot(cfg, cfg.targetRoot + cfg.sep + rest)
  {
    BeneathJoin(cfg.targetRoot, cfg.sep, rest);
  }

  /** Every path beneath either stdlib location is standard library. */
  lemma StdlibPathsAreStdlib(std: StdlibPaths, sep: string, rest: string)
    ensures IsStdlib(std.stdlib + sep + rest, std, sep)
    ensures IsStdlib(std.platstdlib + sep + rest, std, sep)
  {
    BeneathJoin(std.stdlib, sep, rest);
    BeneathJoin(std.platstdlib, sep, rest);
  }

  /** The separator is part of the stdlib test: a sibling whose name merely
      extends the stdlib location's name is not standard library, unless it
      lies beneath the other location. */
  lemma {:induction false} StdlibSiblingNotStdlib(std: StdlibPaths, sep: string, ext: string, rest: string)
    requires |sep| > 0 && ext != [] && ext[0] != sep[0]
    requires !Beneath(std.stdlib + ext + rest, std.platstdlib, sep)
    ensures !IsStdlib(std.stdlib + ext + rest, std, sep)
  {
    var path := std.stdlib + ext + rest;
    assert path[|std.stdlib|] == ext[0];
    if |path| >= |std.stdlib| + |sep| {
      assert path[|std.stdlib|..|std.stdlib| + |sep|][0] == path[|std.stdlib|];
    }
  }

  /** `want`: reject the empty path, then everything outside the root, then,
      unless --include-stdlib was given, standard-library files. */
  function Want(cfg: FilterConfig, path: string): (r: bool)
    ensures r ==> path != "" && UnderRoot(cfg, path)
  {
    if path == "" then false
    else if !UnderRoot(cfg, path) then false
    else if !cfg.includeStdlib && IsStdlib(path, cfg.std, cfg.sep) then false
    else true
  }

  /** A path is traced exactly when it is non-empty, under the root, and either
      the flag is set or it is not a standard-library file. */
  lemma WantCharacterised(cfg: FilterConfig, path: string)
    ensures Want(cfg, path) <==>
      path != "" && UnderRoot(cfg, path) && (cfg.includeStdlib || !IsStdlib(path, cfg.std, cfg.sep))
  {
  }

  /** The empty path (a frame without a file) is never traced. */
  lemma EmptyPathRejected(cfg: FilterConfig)
    ensures !Want(cfg, "")
  {
  }

  /** A path outside the root is rejected whatever the flags say. */
  lemma OutsideRootRejected(cfg: FilterConfig, path: string)
    requires !UnderRoot(cfg, path)
    ensures !Want(cfg, path)
    ensures !Want(cfg.(includeStdlib := true), path)
  {
  }

  /** A standard-library path is rejected unless --include-stdlib is set. */
  lemma StdlibRejectedByDefault(cfg: FilterConfig, path: string)
    requires !cfg.includeStdlib && IsStdlib(path, cfg.std, cfg.sep)
    ensures !Want(cfg, path)
  {
  }

  /** With --include-stdlib the decision is the root rule alone, so the flag
      can only widen the set of traced files. */
  lemma IncludeStdlibIsRootRule(cfg: FilterConfig, path: string)
    requires cfg.includeStdlib
    ensures Want(cfg, path) <==> path != "" && UnderRoot(cfg, path)
  {
  }

  lemma IncludeStdlibWidens(cfg: FilterConfig, path: string)
    requires Want(cfg, path)
    ensures Want(cfg.(includeStdlib := true), path)
  {
  }

  /** The separator is part of the root test: a sibling whose name merely
      extends the root's name (the root followed by anything but the
      separator) is not under the root, whatever the flags. */
  lemma {:induction false} SiblingDirectoryRejected(cfg: FilterConfig, ext: string, rest: string)
    requires |cfg.sep| > 0 && ext != [] && ext[0] != cfg.sep[0]
    requires cfg.targetRoot + ext + rest != cfg.progAbs
    ensures !Want(cfg, cfg.targetRoot + ext + rest)
  {
    var path := cfg.targetRoot + ext + rest;
    assert path[|cfg.targetRoot|] == ext[0];
    assert (cfg.targetRoot + cfg.sep)[|cfg.targetRoot|] == cfg.sep[0];
  }

  /** When the stdlib entries are empty, `std + os.sep` is the bare separator,
      which every absolute path starts with: every path then counts as
      standard library. */
  lemma EmptyStdlibEntryCoversAbsolutePaths(path: string, sep: string)
    requires StartsWith(path, sep)
    ensures IsStdlib(path, StdlibPaths("", ""), sep)
  {
  }
}

=== FILE: report.dfy ===
/**
  Row assembly of pyleup.py (lines 206-217): after the run, one row per
  node in creation order, carrying the node's identity, position and event
  log and its duration. Durations are integer nanoseconds; the division by
  1e6 into milliseconds is not part of this model.
*/
module Report {
  import opened Wrappers
  import opened TraceSpec

  datatype Row = Row(
    id: nat,
    name: string,
    file: string,
    firstLine: int,
    depth: nat,
    durNs: int,
    lines: seq<Entry>)

  /** `(n.end_ns or n.start_ns) - n.start_ns`. Python's `or` falls back to
      the start when the end is None or 0: an open node lasts 0, a finished
      node lasts from its start to its end, unless the end reading is 0. */
  function Duration(n: NodeVal): (r: int)
    ensures n.endNs.None? ==> r == 0
    ensures n.endNs.Some? && n.endNs.value != 0 ==> r == n.endNs.value - n.startNs
    ensures n.endNs == Some(0) ==> r == 0
  {
    (if n.endNs.Some? && n.endNs.value != 0 then n.endNs.value else n.startNs) - n.startNs
  }

  /** The row of one node: its identity, position and log, and its
      duration, which is 0 while it is open. */
  function RowOf(n: NodeVal): (r: Row)
    ensures r.id == n.id && r.name == n.name && r.file == n.file && r.firstLine == n.firstLine
    ensures r.depth == n.depth && r.lines == n.lines && r.durNs == Duration(n)
    ensures n.endNs.None? ==> r.durNs == 0
  {
    Row(n.id, n.name, n.file, n.firstLine, n.depth, Duration(n), n.lines)
  }

  /** The rows, one per node, in node order. */
  function Rows(nodes: seq<NodeVal>): (r: seq<Row>)
    ensures |r| == |nodes| && forall i :: 0 <= i < |nodes| ==> r[i] == RowOf(nodes[i])
  {
    seq(|nodes|, i requires 0 <= i < |nodes| => RowOf(nodes[i]))
  }

  /** In a reachable state there is one row per node, in creation order, with
      ids 1, 2, ...; each row's log starts with its definition entry, and
      every handle in it resolves to a record of that row's node whose kind
      matches the label. A row is open (duration 0, no "return") exactly
      when its node is on the stack. */
  lemma {:induction false} RowsResolve(s: TraceState)
    requires Inv(s)
    ensures var rows := Rows(s.nodes);
      |rows| == |s.nodes|
      && (forall i :: 0 <= i < |rows| ==>
            rows[i].id == i + 1 && rows[i].depth == s.nodes[i].depth && rows[i].name == s.nodes[i].name
            && rows[i].file == s.nodes[i].file && rows[i].firstLine == s.nodes[i].firstLine
            && rows[i].lines == s.nodes[i].lines && |rows[i].lines| > 0
            && rows[i].lines[0].tag == Def(rows[i].firstLine))
      && (forall i, k :: 0 <= i < |rows| && 0 <= k < |rows[i].lines| && rows[i].lines[k].snap.Some? ==>
            rows[i].lines[k].snap.value < |s.snaps| && s.snaps[rows[i].lines[k].snap.value].nodeId == rows[i].id)
      && (forall i :: 0 <= i < |rows| && i + 1 in s.stack ==> rows[i].durNs == 0)
  {
    var rows := Rows(s.nodes);
    forall i, k | 0 <= i < |rows| && 0 <= k < |rows[i].lines| && rows[i].lines[k].snap.Some?
      ensures rows[i].lines[k].snap.value < |s.snaps| && s.snaps[rows[i].lines[k].snap.value].nodeId == rows[i].id
    {
      assert Anchored(s.nodes[i], s.snaps);
      assert EntryOk(s.nodes[i].lines[k], s.nodes[i].id, s.snaps);
    }
    forall i | 0 <= i < |rows|
      ensures rows[i].id == i + 1 && |rows[i].lines| > 0 && rows[i].lines[0].tag == Def(rows[i].firstLine)
      ensures i + 1 in s.stack ==> rows[i].durNs == 0
    {
      assert Shaped(s.nodes[i]);
    }
  }

  /** With finished nodes ending no earlier than they started (a monotonic
      clock, `TraceRuns.RunDurations`), no row has a negative duration, and a
      finished row's duration is its end minus its start. */
  lemma {:induction false} RowDurations(s: TraceState)
    requires DurationsOk(s)
    ensures var rows := Rows(s.nodes);
      forall i :: 0 <= i < |rows| ==>
        rows[i].durNs >= 0
        && (s.nodes[i].endNs.None? ==> rows[i].durNs == 0)
        && (s.nodes[i].endNs.Some? && s.nodes[i].endNs.value != 0 ==>
              rows[i].durNs == s.nodes[i].endNs.value - s.nodes[i].startNs)
  {
    var rows := Rows(s.nodes);
    forall i | 0 <= i < |rows|
      ensures rows[i].durNs >= 0
    {
      assert rows[i] == RowOf(s.nodes[i]);
    }
  }
}

=== FILE: safe_repr.dfy ===
/**
  `safe_repr` of pyleup.py (lines 43-50): a never-failing, length-bounded
  textual rendering of a value.

  Calling Python's `repr` is outside the model: its outcome, the text it
  produced or the fact that it raised (with the value's type name), is the
  input.
*/
module SafeRepr {

  /** What `repr(val)` did. */
  datatype ReprOutcome = Rendered(text: string) | Raised(typeName: string)

  /** The default `maxlen` of `safe_repr`. */
  const DefaultMaxLen: nat := 200

  /** The single character (U+2026) that marks a truncated rendering. */
  const Ellipsis: char := '…'

  /** The placeholder substituted when `repr` raises. */
  function Placeholder(typeName: string): (r: string)
    ensures |r| == |typeName| + 9 && r[8..|r| - 1] == typeName
    ensures r[..8] == "<unrepr " && r[|r| - 1] == '>'
  {
    "<unrepr " + typeName + ">"
  }

  function Render(v: ReprOutcome, maxlen: nat): (r: string)
    ensures v.Rendered? ==> |r| <= maxlen + 1
    ensures v.Rendered? && |v.text| <= maxlen ==> r == v.text
    ensures v.Rendered? && |v.text| > maxlen ==>
      |r| == maxlen + 1 && r[..maxlen] == v.text[..maxlen] && r[maxlen] == Ellipsis
    ensures v.Raised? ==> r == Placeholder(v.typeName)
  {
    match v
    case Raised(t) => Placeholder(t)
    case Rendered(s) => if |s| > maxlen then s[..maxlen] + [Ellipsis] else s
  }

  /** A rendering is the original text exactly when the text is short
      enough, or is one character too long and already ends in the marker. */
  lemma RenderUnchangedIff(text: string, maxlen: nat)
    ensures Render(Rendered(text), maxlen) == text <==>
      |text| <= maxlen || (|text| == maxlen + 1 && text[maxlen] == Ellipsis)
  {
    if |text| == maxlen + 1 && text[maxlen] == Ellipsis {
      assert text == text[..maxlen] + [Ellipsis];
    }
  }

  /** Rendering a rendering again with the same bound changes nothing: a
      truncated text already has its first `maxlen` characters followed by
      the marker. */
  lemma {:induction false} RenderIdempotent(v: ReprOutcome, maxlen: nat)
    requires v.Rendered?
    ensures Render(Rendered(Render(v, maxlen)), maxlen) == Render(v, maxlen)
  {
    var r := Render(v, maxlen);
    if |v.text| > maxlen {
      var r2 := Render(Rendered(r), maxlen);
      assert r2 == r[..maxlen] + [Ellipsis];
      assert r == r[..maxlen] + [r[maxlen]];
    }
  }
}

=== FILE: scenarios.dfy ===
/**
  Worked runs of the callback: an outer function that calls an inner one,
  and events from files the filter refuses.
*/
module Scenarios {
  import opened Wrappers
  import opened PathFilter
  import opened Snapshots
  import opened TraceSpec

  /** `outer` calls `inner`; both return. The outer log holds its definition
      entry, the `__child__` spacer written when `inner` was entered, and its
      return entry; the inner node is its child at depth 1. Records are
      numbered in event order: outer call 0, inner call 1, inner return 2,
      outer return 3. */
  lemma {:induction false} NestedCalls(c: Config, outer: Frame, inner: Frame, t0: int, t1: int, t2: int, t3: int, p: Probe)
    requires Want(c.filter, outer.file) && Want(c.filter, inner.file)
    ensures var s := Run(c, Initial(), [Event(CallEvent, outer, t0, p), Event(CallEvent, inner, t1, p),
                                         Event(ReturnEvent, inner, t2, p), Event(ReturnEvent, outer, t3, p)]);
      |s.nodes| == 2 && s.stack == [] && |s.snaps| == 4
      && s.nodes[0].lines == [Entry(Def(outer.firstLine), Some(0)), Entry(Child, None), Entry(Return, Some(3))]
      && s.nodes[1].lines == [Entry(Def(inner.firstLine), Some(1)), Entry(Return, Some(2))]
      && s.nodes[0].parent == None && s.nodes[1].parent == Some(1)
      && s.nodes[0].depth == 0 && s.nodes[1].depth == 1
      && s.nodes[0].endNs == Some(t3) && s.nodes[1].endNs == Some(t2)
      && [s.snaps[0].kind, s.snaps[1].kind, s.snaps[2].kind, s.snaps[3].kind] == [CallSnap, CallSnap, ReturnSnap, ReturnSnap]
  {
    var e0 := Event(CallEvent, outer, t0, p);
    var e1 := Event(CallEvent, inner, t1, p);
    var e2 := Event(ReturnEvent, inner, t2, p);
    var e3 := Event(ReturnEvent, outer, t3, p);
    TwoCalls(c, outer, inner, t0, t1, p);
    TwoReturns(c, Step(c, Step(c, Initial(), e0), e1), outer, inner, t2, t3, p);
    RunOfFour(c, Initial(), e0, e1, e2, e3);
  }

  /** The first half of `NestedCalls`: after both calls, both nodes are open
      on the stack and the outer log holds the definition entry and the
      spacer. */
  lemma TwoCalls(c: Config, outer: Frame, inner: Frame, t0: int, t1: int, p: Probe)
    requires Want(c.filter, outer.file) && Want(c.filter, inner.file)
    ensures var s := Step(c, Step(c, Initial(), Event(CallEvent, outer, t0, p)), Event(CallEvent, inner, t1, p));
      |s.nodes| == 2 && s.stack == [1, 2] && |s.snaps| == 2
      && s.nodes[0].lines == [Entry(Def(outer.firstLine), Some(0)), Entry(Child, None)]
      && s.nodes[1].lines == [Entry(Def(inner.firstLine), Some(1))]
      && s.nodes[0].parent == None && s.nodes[1].parent == Some(1)
      && s.nodes[0].depth == 0 && s.nodes[1].depth == 1
      && s.snaps[0].kind == CallSnap && s.snaps[1].kind == CallSnap
  {
    var s1 := Step(c, Initial(), Event(CallEvent, outer, t0, p));
    assert s1 == CallStep(c, Initial(), outer, t0, p);
    var s2 := Step(c, s1, Event(CallEvent, inner, t1, p));
    assert s2 == CallStep(c, s1, inner, t1, p);
  }

  /** The second half of `NestedCalls`: the two returns close the inner and
      then the outer node. */
  lemma TwoReturns(c: Config, s: TraceState, outer: Frame, inner: Frame, t2: int, t3: int, p: Probe)
    requires Want(c.filter, outer.file) && Want(c.filter, inner.file)
    requires |s.nodes| == 2 && s.stack == [1, 2] && |s.snaps| == 2
    ensures var r := Step(c, Step(c, s, Event(ReturnEvent, inner, t2, p)), Event(ReturnEvent, outer, t3, p));
      |r.nodes| == 2 && r.stack == [] && |r.snaps| == 4 && r.snaps[..2] == s.snaps
      && r.nodes[0] == s.nodes[0].(endNs := Some(t3), lines := s.nodes[0].lines + [Entry(Return, Some(3))])
      && r.nodes[1] == s.nodes[1].(endNs := Some(t2), lines := s.nodes[1].lines + [Entry(Return, Some(2))])
      && r.snaps[2].kind == ReturnSnap && r.snaps[3].kind == ReturnSnap
  {
    var s3 := Step(c, s, Event(ReturnEvent, inner, t2, p));
    assert s3 == ReturnStep(c, s, inner, t2, p);
    var s4 := Step(c, s3, Event(ReturnEvent, outer, t3, p));
    assert s4 == ReturnStep(c, s3, outer, t3, p);
  }

  /** A run of four events is four steps. */
  lemma RunOfFour(c: Config, s: TraceState, e0: Event, e1: Event, e2: Event, e3: Event)
    ensures Run(c, s, [e0, e1, e2, e3]) == Step(c, Step(c, Step(c, Step(c, s, e0), e1), e2), e3)
  {
    var evs := [e0, e1, e2, e3];
    assert evs[1..] == [e1, e2, e3] && evs[1..][1..] == [e2, e3] && evs[1..][1..][1..] == [e3];
    assert evs[1..][1..][1..][1..] == [];
    var s1 := Step(c, s, e0);
    var s2 := Step(c, s1, e1);
    var s3 := Step(c, s2, e2);
    var s4 := Step(c, s3, e3);
    assert Run(c, s3, [e3]) == Run(c, s4, []) == s4;
    assert Run(c, s2, [e2, e3]) == Run(c, s3, [e3]);
    assert Run(c, s1, [e1, e2, e3]) == Run(c, s2, [e2, e3]);
  }

  /** Events from files the filter refuses leave the state as it was. */
  lemma {:induction false} RefusedFilesChangeNothing(c: Config, s: TraceState, evs: seq<Event>)
    requires forall i :: 0 <= i < |evs| ==> !Want(c.filter, evs[i].frame.file)
    ensures Run(c, s, evs) == s
    decreases |evs|
  {
    if evs != [] {
      RefusedFilesChangeNothing(c, s, evs[1..]);
    }
  }
}

=== FILE: snapshots.dfy ===
/**
  The snapshot record built by `take_snapshot` in pyleup.py (lines 117-149).

  The record's tracking data comes from outside the model: the wall-clock
  reading, the tracemalloc counters and the outcome of the heavier
  tracemalloc snapshot form a `Probe`, and the interpreter frame is reduced
  to the `Frame` fields the tracer reads. What the model keeps is how the
  record is assembled from them: which frame fields go in, how locals are
  rendered, how the top allocation sites are selected, and that a failure of
  the heavy step is recorded in the record instead of being raised.
*/
module Snapshots {
  import opened SafeRepr

  /** The `kind` field of a record. */
  datatype SnapKind = CallSnap | LineSnap | ReturnSnap

  /** The parts of an interpreter frame the tracer reads: `co_filename`,
      `co_name`, `co_firstlineno`, `f_lineno` and `f_locals` (each local's
      `repr` outcome in dictionary order). */
  datatype Frame = Frame(
    file: string,
    func: string,
    firstLine: int,
    lineno: int,
    locals: seq<(string, ReprOutcome)>)

  /** One traceback entry and one statistic of `snapshot.statistics('lineno')`. */
  datatype TraceEntry = TraceEntry(filename: string, lineno: int)
  datatype Statistic = Statistic(traceback: seq<TraceEntry>, size: int, count: int)

  /** What the heavy tracemalloc step did: statistics sorted by size, or an
      exception whose `repr` outcome is given. */
  datatype HeapProbe = Statistics(stats: seq<Statistic>) | Failed(error: ReprOutcome)

  /** Everything a snapshot reads from outside the tracer. */
  datatype Probe = Probe(ts: real, current: int, peak: int, heap: HeapProbe)

  /** One entry of "tracemalloc_top". */
  datatype Site = Site(file: string, line: int, size: int, count: int)

  /** The optional heavy part of a record: absent when --heap-stats is off,
      "tracemalloc_top" on success, "tracemalloc_top_error" on failure. */
  datatype HeapField = NoHeapStats | Top(sites: seq<Site>) | TopError(message: string)

  /** The remaining fields of the record (the "payload" dictionary). */
  datatype Payload = Payload(
    ts: real,
    file: string,
    func: string,
    locals: seq<(string, string)>,
    current: int,
    peak: int,
    heap: HeapField)

  /** A snapshot record: kind, owning node id, line number and the rest. */
  datatype Snapshot = Snapshot(kind: SnapKind, nodeId: nat, lineno: int, payload: Payload)

  /** How many statistics are kept (`[:20]`). */
  const TopCount: nat := 20

  function SiteOf(s: Statistic): Site
    requires s.traceback != []
  {
    Site(s.traceback[0].filename, s.traceback[0].lineno, s.size, s.count)
  }

  /** The comprehension over `top`: statistics without a traceback are
      dropped, the others are reduced to their first frame, in order. */
  function Sites(stats: seq<Statistic>): (r: seq<Site>)
    ensures |r| <= |stats|
    ensures forall s :: s in stats && s.traceback != [] ==> SiteOf(s) in r
    ensures forall site :: site in r ==> exists s :: s in stats && s.traceback != [] && site == SiteOf(s)
  {
    if stats == [] then []
    else
      var rest := Sites(stats[1..]);
      assert forall s :: s in stats[1..] ==> s in stats;
      if stats[0].traceback != [] then [SiteOf(stats[0])] + rest else rest
  }

  /** A single statistic gives its site exactly when it has a traceback. */
  lemma SitesSingle(s: Statistic)
    ensures Sites([s]) == if s.traceback != [] then [SiteOf(s)] else []
  {
    assert [s][1..] == [];
  }

  /** The comprehension works statistic by statistic: the sites of a
      concatenation are the concatenation of the sites, so order and
      repetitions are kept. */
  lemma {:induction false} SitesAppend(a: seq<Statistic>, b: seq<Statistic>)
    ensures Sites(a + b) == Sites(a) + Sites(b)
    decreases |a|
  {
    if a == [] {
      assert a + b == b;
    } else {
      assert (a + b)[1..] == a[1..] + b;
      SitesAppend(a[1..], b);
    }
  }

  /** "tracemalloc_top": at most twenty sites, drawn from the twenty largest
      statistics. */
  function TopSites(stats: seq<Statistic>): (r: seq<Site>)
    ensures r == Sites(stats[..if |stats| <= TopCount then |stats| else TopCount])
    ensures |r| <= TopCount
    ensures forall i :: 0 <= i < |stats| && i < TopCount && stats[i].traceback != [] ==> SiteOf(stats[i]) in r
    ensures forall site :: site in r ==>
      exists i :: 0 <= i < |stats| && i < TopCount && stats[i].traceback != [] && site == SiteOf(stats[i])
  {
    var top := if |stats| <= TopCount then stats else stats[..TopCount];
    var r := Sites(top);
    assert top == stats[..if |stats| <= TopCount then |stats| else TopCount];
    assert forall i :: 0 <= i < |stats| && i < TopCount ==> stats[i] == top[i];
    assert forall s :: s in top ==> exists i :: 0 <= i < |stats| && i < TopCount && s == stats[i];
    r
  }

  /** "locals": every local rendered with `safe_repr`, names and order kept;
      a local whose `repr` raised shows the placeholder. */
  function RenderLocals(locals: seq<(string, ReprOutcome)>): (r: seq<(string, string)>)
    ensures |r| == |locals|
    ensures forall i :: 0 <= i < |locals| ==> r[i].0 == locals[i].0
    ensures forall i :: 0 <= i < |locals| ==> r[i].1 == Render(locals[i].1, DefaultMaxLen)
    ensures forall i :: 0 <= i < |locals| && locals[i].1.Rendered? ==> |r[i].1| <= DefaultMaxLen + 1
    ensures forall i :: 0 <= i < |locals| && locals[i].1.Raised? ==> r[i].1 == Placeholder(locals[i].1.typeName)
  {
    seq(|locals|, i requires 0 <= i < |locals| => (locals[i].0, Render(locals[i].1, DefaultMaxLen)))
  }

  /** The heavy part: nothing unless --heap-stats is set; a failure becomes
      the rendered exception instead of propagating. */
  function HeapPart(heapStats: bool, h: HeapProbe): (r: HeapField)
    ensures !heapStats <==> r.NoHeapStats?
    ensures heapStats && h.Statistics? ==> r == Top(TopSites(h.stats))
    ensures heapStats && h.Failed? ==> r == TopError(Render(h.error, DefaultMaxLen))
    ensures r.Top? ==> |r.sites| <= TopCount
  {
    if !heapStats then NoHeapStats
    else match h
      case Statistics(stats) => Top(TopSites(stats))
      case Failed(e) => TopError(Render(e, DefaultMaxLen))
  }

  /** The record `take_snapshot(kind, frame, node_id, lineno)` appends. */
  function MakeSnapshot(heapStats: bool, kind: SnapKind, f: Frame, nodeId: nat, lineno: int, p: Probe): (r: Snapshot)
    ensures r.kind == kind && r.nodeId == nodeId && r.lineno == lineno
    ensures r.payload.file == f.file && r.payload.func == f.func
    ensures |r.payload.locals| == |f.locals|
  {
    Snapshot(kind, nodeId, lineno,
      Payload(p.ts, f.file, f.func, RenderLocals(f.locals), p.current, p.peak, HeapPart(heapStats, p.heap)))
  }

  /** What a record holds besides its header: the probe's timestamp and
      memory counters; every local of the frame, rendered by `safe_repr`, in
      order; and the heavy part, which is absent without --heap-stats, the
      top sites of the statistics on success, and the rendered exception
      when the heavy step failed (the failure is recorded, not raised). */
  lemma SnapshotPayload(heapStats: bool, kind: SnapKind, f: Frame, nodeId: nat, lineno: int, p: Probe)
    ensures var r := MakeSnapshot(heapStats, kind, f, nodeId, lineno, p);
      r.payload.ts == p.ts && r.payload.current == p.current && r.payload.peak == p.peak
      && r.payload.locals == RenderLocals(f.locals)
      && (forall i :: 0 <= i < |f.locals| ==>
            r.payload.locals[i] == (f.locals[i].0, Render(f.locals[i].1, DefaultMaxLen)))
      && r.payload.heap == HeapPart(heapStats, p.heap)
      && (!heapStats ==> r.payload.heap == NoHeapStats)
      && (heapStats && p.heap.Statistics? ==> r.payload.heap == Top(TopSites(p.heap.stats)))
      && (heapStats && p.heap.Failed? ==> r.payload.heap == TopError(Render(p.heap.error, DefaultMaxLen)))
  {
  }
}

=== FILE: trace_proofs.dfy ===
/**
  Each event handler of `TraceSpec` preserves the builder's invariants.
  The proofs go through the "skeleton" of the node list, the fields no
  handler changes after creation.
*/
module TraceProofs {
  import opened Wrappers
  import opened PathFilter
  import opened Snapshots
  import opened TraceSpec

  /** Same nodes, up to their logs and end times. */
  ghost predicate SameSkeleton(a: seq<NodeVal>, b: seq<NodeVal>) {
    |a| == |b| &&
    forall i :: 0 <= i < |a| ==>
      a[i].id == b[i].id && a[i].parent == b[i].parent && a[i].depth == b[i].depth && a[i].startNs == b[i].startNs
  }

  lemma AppendEntrySkeleton(nodes: seq<NodeVal>, id: nat, e: Entry)
    ensures SameSkeleton(nodes, AppendEntry(nodes, id, e))
  {
  }

  lemma SetEndSkeleton(nodes: seq<NodeVal>, id: nat, now: int)
    ensures SameSkeleton(nodes, SetEnd(nodes, id, now))
  {
  }

  lemma SkeletonKeepsParents(a: seq<NodeVal>, b: seq<NodeVal>)
    requires SameSkeleton(a, b) && IdsOk(a) && ParentsOk(a)
    ensures IdsOk(b) && ParentsOk(b)
  {
    forall i | 0 <= i < |b|
      ensures ParentOk(b, i)
    {
      assert ParentOk(a, i);
    }
  }

  lemma PushKeepsParents(a: seq<NodeVal>, n: NodeVal)
    requires IdsOk(a) && ParentsOk(a)
    requires n.id == |a| + 1
    requires n.parent.None? ==> n.depth == 0
    requires n.parent.Some? ==> 1 <= n.parent.value <= |a| && a[n.parent.value - 1].depth + 1 == n.depth
    ensures IdsOk(a + [n]) && ParentsOk(a + [n])
  {
    var b := a + [n];
    forall i | 0 <= i < |b|
      ensures ParentOk(b, i)
    {
      if i < |a| {
        assert ParentOk(a, i);
        assert b[i] == a[i];
      }
    }
  }

  /** The stack facts depend only on the skeleton. */
  lemma SkeletonKeepsStack(a: seq<NodeVal>, b: seq<NodeVal>, stack: seq<nat>)
    requires StackOk(a, stack) && SameSkeleton(a, b)
    ensures StackOk(b, stack)
  {
  }

  /** Pushing a node whose depth is the stack length and whose parent is the
      old top keeps the stack facts. */
  lemma PushKeepsStack(nodes: seq<NodeVal>, stack: seq<nat>, n: NodeVal)
    requires StackOk(nodes, stack) && n.id == |nodes| + 1 && n.depth == |stack|
    requires n.parent == if stack == [] then None else Some(stack[|stack| - 1])
    ensures StackOk(nodes + [n], stack + [n.id])
  {
    var ns, st := nodes + [n], stack + [n.id];
    forall i | 0 <= i < |st|
      ensures 1 <= st[i] <= |ns|
      ensures ns[st[i] - 1].depth == i
      ensures ns[st[i] - 1].parent == if i == 0 then None else Some(st[i - 1])
    {
      if i > 0 {
        assert st[i - 1] == stack[i - 1];
      }
      if i < |stack| {
        assert st[i] == stack[i];
        assert ns[st[i] - 1] == nodes[stack[i] - 1];
      } else {
        assert ns[st[i] - 1] == n;
      }
    }
  }

  lemma PopKeepsStack(nodes: seq<NodeVal>, stack: seq<nat>)
    requires StackOk(nodes, stack) && stack != []
    ensures StackOk(nodes, stack[..|stack| - 1])
  {
    var st := stack[..|stack| - 1];
    forall i | 0 <= i < |st|
      ensures 1 <= st[i] <= |nodes| && nodes[st[i] - 1].depth == i
      ensures nodes[st[i] - 1].parent == if i == 0 then None else Some(st[i - 1])
    {
      assert st[i] == stack[i];
      if i > 0 {
        assert st[i - 1] == stack[i - 1];
      }
    }
    assert forall i, j :: 0 <= i < j < |st| ==> st[i] == stack[i] && st[j] == stack[j];
  }

  lemma LogsGrow(nodes: seq<NodeVal>, snaps: seq<Snapshot>, rec: Snapshot)
    requires LogsOk(nodes, snaps)
    ensures LogsOk(nodes, snaps + [rec])
  {
    forall i | 0 <= i < |nodes|
      ensures Anchored(nodes[i], snaps + [rec])
    {
      AnchoredGrows(nodes[i], snaps, [rec]);
    }
  }

  /** Appending an entry that points into the log to an open node. */
  lemma LogsAppend(nodes: seq<NodeVal>, snaps: seq<Snapshot>, id: nat, e: Entry)
    requires LogsOk(nodes, snaps) && IdsOk(nodes) && 1 <= id <= |nodes|
    requires nodes[id - 1].endNs.None? && !e.tag.Return? && EntryOk(e, id, snaps)
    ensures LogsOk(AppendEntry(nodes, id, e), snaps)
  {
    ShapedAppend(nodes[id - 1], e);
    AnchoredAppend(nodes[id - 1], e, snaps);
  }

  /** Finishing an open node with a "return" entry. */
  lemma LogsFinish(nodes: seq<NodeVal>, snaps: seq<Snapshot>, id: nat, now: int, e: Entry)
    requires LogsOk(nodes, snaps) && IdsOk(nodes) && 1 <= id <= |nodes|
    requires nodes[id - 1].endNs.None? && e.tag.Return? && EntryOk(e, id, snaps)
    ensures LogsOk(AppendEntry(SetEnd(nodes, id, now), id, e), snaps)
  {
    var n := nodes[id - 1];
    ShapedFinish(n, now, e);
    AnchoredAppend(n.(endNs := Some(now)), e, snaps);
    assert AppendEntry(SetEnd(nodes, id, now), id, e)[id - 1] == n.(endNs := Some(now), lines := n.lines + [e]);
  }

  // ---------------------------------------------------------------------
  // The three handlers

  lemma OwnedGrows(snaps: seq<Snapshot>, nextId: nat, rec: Snapshot, nextId': nat)
    requires Owned(snaps, nextId) && nextId <= nextId' && 1 <= rec.nodeId < nextId'
    ensures Owned(snaps + [rec], nextId')
  {
    var ss := snaps + [rec];
    forall h | 0 <= h < |ss|
      ensures 1 <= ss[h].nodeId < nextId'
    {
      if h < |snaps| {
        assert ss[h] == snaps[h];
      }
    }
  }

  lemma CallSkeleton(s: TraceState, f: Frame, now: int)
    requires s.nextId == |s.nodes| + 1 && IdsOk(s.nodes) && ParentsOk(s.nodes) && StackOk(s.nodes, s.stack)
    ensures IdsOk(CallParents(s) + [CallNode(s, f, now)]) && ParentsOk(CallParents(s) + [CallNode(s, f, now)])
    ensures StackOk(CallParents(s) + [CallNode(s, f, now)], s.stack + [s.nextId])
    ensures SameSkeleton(s.nodes, CallParents(s))
    ensures forall i :: 0 <= i < |s.nodes| ==> CallParents(s)[i].endNs == s.nodes[i].endNs
  {
    var nodes1 := CallParents(s);
    var n := CallNode(s, f, now);
    if s.stack != [] {
      AppendEntrySkeleton(s.nodes, TopId(s), Entry(Child, None));
      assert s.nodes[TopId(s) - 1].depth == |s.stack| - 1;
    }
    SkeletonKeepsParents(s.nodes, nodes1);
    PushKeepsParents(nodes1, n);
    SkeletonKeepsStack(s.nodes, nodes1, s.stack);
    PushKeepsStack(nodes1, s.stack, n);
  }

  lemma CallLogs(c: Config, s: TraceState, f: Frame, now: int, p: Probe)
    requires s.nextId == |s.nodes| + 1 && IdsOk(s.nodes) && LogsOk(s.nodes, s.snaps)
    requires OpenOnStack(s.nodes, s.stack) && StackOk(s.nodes, s.stack)
    ensures LogsOk(CallParents(s) + [CallNode(s, f, now)], s.snaps + [CallRecord(c, s, f, p)])
  {
    var nodes1 := CallParents(s);
    var n := CallNode(s, f, now);
    var rec := CallRecord(c, s, f, p);
    if s.stack != [] {
      assert TopId(s) in s.stack;
      LogsAppend(s.nodes, s.snaps, TopId(s), Entry(Child, None));
    }
    LogsGrow(nodes1, s.snaps, rec);
    var ns := nodes1 + [n];
    forall i | 0 <= i < |ns|
      ensures Shaped(ns[i]) && Anchored(ns[i], s.snaps + [rec])
    {
      if i < |nodes1| {
        assert ns[i] == nodes1[i];
      } else {
        assert ns[i] == n;
        assert (s.snaps + [rec])[|s.snaps|] == rec;
      }
    }
  }

  lemma CallOpen(s: TraceState, f: Frame, now: int)
    requires s.nextId == |s.nodes| + 1 && OpenOnStack(s.nodes, s.stack) && StackOk(s.nodes, s.stack)
    requires SameSkeleton(s.nodes, CallParents(s))
    requires forall i :: 0 <= i < |s.nodes| ==> CallParents(s)[i].endNs == s.nodes[i].endNs
    ensures OpenOnStack(CallParents(s) + [CallNode(s, f, now)], s.stack + [s.nextId])
  {
    var ns := CallParents(s) + [CallNode(s, f, now)];
    var st := s.stack + [s.nextId];
    forall i | 0 <= i < |ns|
      ensures ns[i].endNs.None? <==> i + 1 in st
    {
      if i < |s.nodes| {
        assert ns[i].endNs == s.nodes[i].endNs;
        assert i + 1 in st <==> i + 1 in s.stack;
      } else {
        assert st[|s.stack|] == i + 1;
      }
    }
  }

  lemma CallStepInv(c: Config, s: TraceState, f: Frame, now: int, p: Probe)
    requires Inv(s)
    ensures Inv(CallStep(c, s, f, now, p))
    ensures DurationsOk(s) ==> DurationsOk(CallStep(c, s, f, now, p))
  {
    var s' := CallStep(c, s, f, now, p);
    CallSkeleton(s, f, now);
    CallLogs(c, s, f, now, p);
    CallOpen(s, f, now);
    OwnedGrows(s.snaps, s.nextId, CallRecord(c, s, f, p), s.nextId + 1);
    if DurationsOk(s) {
      forall i | 0 <= i < |s'.nodes| && s'.nodes[i].endNs.Some?
        ensures s'.nodes[i].startNs <= s'.nodes[i].endNs.value
      {
        assert i < |s.nodes|;
        assert s'.nodes[i].endNs == s.nodes[i].endNs;
      }
    }
  }

  /** Appending a new record and an entry pointing to it to the top node. */
  lemma AppendToTop(nodes: seq<NodeVal>, stack: seq<nat>, nextId: nat, snaps: seq<Snapshot>, e: Entry, rec: Snapshot)
    requires Consistent(nodes, stack, nextId, snaps) && stack != []
    requires !e.tag.Return? && EntryOk(e, stack[|stack| - 1], snaps + [rec])
    requires rec.nodeId == stack[|stack| - 1]
    ensures Consistent(AppendEntry(nodes, stack[|stack| - 1], e), stack, nextId, snaps + [rec])
  {
    var t := stack[|stack| - 1];
    var nodes1 := AppendEntry(nodes, t, e);
    assert t in stack;
    LogsGrow(nodes, snaps, rec);
    LogsAppend(nodes, snaps + [rec], t, e);
    AppendEntrySkeleton(nodes, t, e);
    SkeletonKeepsParents(nodes, nodes1);
    SkeletonKeepsStack(nodes, nodes1, stack);
    assert forall i :: 0 <= i < |nodes| ==> nodes1[i].endNs == nodes[i].endNs;
    OwnedGrows(snaps, nextId, rec, nextId);
  }

  /** Finishing the top node with a new "return" record and popping it. */
  lemma FinishTop(nodes: seq<NodeVal>, stack: seq<nat>, nextId: nat, snaps: seq<Snapshot>, now: int, e: Entry, rec: Snapshot)
    requires Consistent(nodes, stack, nextId, snaps) && stack != []
    requires e.tag.Return? && EntryOk(e, stack[|stack| - 1], snaps + [rec])
    requires rec.nodeId == stack[|stack| - 1]
    ensures Consistent(AppendEntry(SetEnd(nodes, stack[|stack| - 1], now), stack[|stack| - 1], e),
                       stack[..|stack| - 1], nextId, snaps + [rec])
  {
    var t := stack[|stack| - 1];
    var nodes1 := AppendEntry(SetEnd(nodes, t, now), t, e);
    var st := stack[..|stack| - 1];
    assert t in stack;
    LogsGrow(nodes, snaps, rec);
    LogsFinish(nodes, snaps + [rec], t, now, e);
    SetEndSkeleton(nodes, t, now);
    AppendEntrySkeleton(SetEnd(nodes, t, now), t, e);
    SkeletonKeepsParents(nodes, nodes1);
    SkeletonKeepsStack(nodes, nodes1, stack);
    PopKeepsStack(nodes1, stack);
    FinishOpen(nodes, stack, now, e);
    OwnedGrows(snaps, nextId, rec, nextId);
  }

  /** Finishing the top node and popping it keeps "open exactly while on the
      stack". */
  lemma FinishOpen(nodes: seq<NodeVal>, stack: seq<nat>, now: int, e: Entry)
    requires OpenOnStack(nodes, stack) && StackOk(nodes, stack) && stack != []
    ensures OpenOnStack(AppendEntry(SetEnd(nodes, stack[|stack| - 1], now), stack[|stack| - 1], e),
                        stack[..|stack| - 1])
  {
    var t := stack[|stack| - 1];
    var nodes1 := AppendEntry(SetEnd(nodes, t, now), t, e);
    var st := stack[..|stack| - 1];
    forall i | 0 <= i < |nodes1|
      ensures nodes1[i].endNs.None? <==> i + 1 in st
    {
      if i == t - 1 {
        assert t !in st;
      } else {
        assert nodes1[i].endNs == nodes[i].endNs;
        assert i + 1 in st <==> i + 1 in stack;
      }
    }
  }

  lemma LineStepInv(c: Config, s: TraceState, f: Frame, p: Probe)
    requires Inv(s)
    ensures Inv(LineStep(c, s, f, p))
    ensures DurationsOk(s) ==> DurationsOk(LineStep(c, s, f, p))
  {
    var s' := LineStep(c, s, f, p);
    if s.stack == [] || c.sampleEvery <= 0 {
      assert s' == s;
    } else if (s.lineCounter + 1) % c.sampleEvery == 0 {
      var t := TopId(s);
      var e := Entry(Line(f.lineno), Some(|s.snaps|));
      var rec := MakeSnapshot(c.heapStats, LineSnap, f, t, f.lineno, p);
      assert s' == TraceState(AppendEntry(s.nodes, t, e), s.stack, s.nextId, s.lineCounter + 1, s.snaps + [rec]);
      AppendToTop(s.nodes, s.stack, s.nextId, s.snaps, e, rec);
      AppendKeepsDurations(s, s', t, e);
    } else {
      assert s' == s.(lineCounter := s.lineCounter + 1);
    }
  }

  /** Appending a log entry touches no start or end time. */
  lemma AppendKeepsDurations(s: TraceState, t: TraceState, id: nat, e: Entry)
    requires t.nodes == AppendEntry(s.nodes, id, e)
    ensures DurationsOk(s) ==> DurationsOk(t)
  {
    if DurationsOk(s) {
      forall i | 0 <= i < |t.nodes| && t.nodes[i].endNs.Some?
        ensures t.nodes[i].startNs <= t.nodes[i].endNs.value
      {
        assert t.nodes[i].startNs == s.nodes[i].startNs && t.nodes[i].endNs == s.nodes[i].endNs;
      }
    }
  }

  lemma ReturnStepInv(c: Config, s: TraceState, f: Frame, now: int, p: Probe)
    requires Inv(s)
    ensures Inv(ReturnStep(c, s, f, now, p))
    ensures DurationsOk(s) && ClockOk(s, now) ==> DurationsOk(ReturnStep(c, s, f, now, p))
  {
    if s.stack != [] {
      var t := TopId(s);
      var rec := MakeSnapshot(c.heapStats, ReturnSnap, f, t, f.lineno, p);
      FinishTop(s.nodes, s.stack, s.nextId, s.snaps, now, Entry(Return, Some(|s.snaps|)), rec);
      var s' := ReturnStep(c, s, f, now, p);
      if DurationsOk(s) && ClockOk(s, now) {
        assert t in s.stack;
        forall i | 0 <= i < |s'.nodes| && s'.nodes[i].endNs.Some?
          ensures s'.nodes[i].startNs <= s'.nodes[i].endNs.value
        {
          if i != t - 1 {
            assert s'.nodes[i] == s.nodes[i];
          }
        }
      }
    }
  }

  /** One callback invocation keeps the invariants; when the clock has not
      gone backwards, finished nodes keep non-negative durations. */
  lemma StepInv(c: Config, s: TraceState, e: Event)
    requires Inv(s)
    ensures Inv(Step(c, s, e))
    ensures DurationsOk(s) && ClockOk(s, e.now) ==> DurationsOk(Step(c, s, e))
  {
    if Want(c.filter, e.frame.file) {
      match e.kind
      case CallEvent => CallStepInv(c, s, e.frame, e.now, e.probe);
      case LineEvent => LineStepInv(c, s, e.frame, e.probe);
      case ReturnEvent => ReturnStepInv(c, s, e.frame, e.now, e.probe);
      case OtherEvent(_) =>
    }
  }
}

=== FILE: trace_runs.dfy ===
/**
  Properties of the trace builder over whole event sequences: the
  invariants hold after any sequence of callbacks, the snapshot log and the
  node list only grow, finished nodes never change again, and depth counts
  ancestors.
*/
module TraceRuns {
  import opened Wrappers
  import opened PathFilter
  import opened Snapshots
  import opened TraceSpec
  import opened TraceProofs

  lemma {:induction false} RunInv(c: Config, s: TraceState, evs: seq<Event>)
    requires Inv(s)
    ensures Inv(Run(c, s, evs))
    decreases |evs|
  {
    if evs != [] {
      StepInv(c, s, evs[0]);
      RunInv(c, Step(c, s, evs[0]), evs[1..]);
    }
  }

  /** Every state reached from the initial one satisfies the invariants. */
  lemma ReachableInv(c: Config, evs: seq<Event>)
    ensures Inv(Run(c, Initial(), evs))
  {
    RunInv(c, Initial(), evs);
  }

  /** `t` is a later state of `s`: the log and the node list were only
      extended, no node's identity, parent, depth or start changed, logs were
      only extended, and finished nodes are untouched. */
  ghost predicate Extends(s: TraceState, t: TraceState) {
    |s.snaps| <= |t.snaps| && t.snaps[..|s.snaps|] == s.snaps
    && |s.nodes| <= |t.nodes|
    && SameSkeleton(s.nodes, t.nodes[..|s.nodes|])
    && (forall i :: 0 <= i < |s.nodes| ==> s.nodes[i].lines <= t.nodes[i].lines)
    && (forall i :: 0 <= i < |s.nodes| && s.nodes[i].endNs.Some? ==> t.nodes[i] == s.nodes[i])
    && s.nextId <= t.nextId && s.lineCounter <= t.lineCounter
  }

  lemma ExtendsRefl(s: TraceState)
    ensures Extends(s, s)
  {
    assert s.snaps[..|s.snaps|] == s.snaps;
    assert s.nodes[..|s.nodes|] == s.nodes;
  }

  lemma ExtendsTrans(a: TraceState, b: TraceState, d: TraceState)
    requires Extends(a, b) && Extends(b, d)
    ensures Extends(a, d)
  {
    assert d.snaps[..|a.snaps|] == d.snaps[..|b.snaps|][..|a.snaps|];
    forall i | 0 <= i < |a.nodes|
      ensures a.nodes[i].lines <= d.nodes[i].lines
      ensures a.nodes[i].endNs.Some? ==> d.nodes[i] == a.nodes[i]
    {
      assert b.nodes[..|a.nodes|][i] == b.nodes[i];
      assert d.nodes[..|b.nodes|][i] == d.nodes[i];
      assert a.nodes[i].endNs.Some? ==> b.nodes[i] == a.nodes[i];
    }
    assert forall i :: 0 <= i < |a.nodes| ==> d.nodes[..|a.nodes|][i] == d.nodes[i] && b.nodes[..|a.nodes|][i] == b.nodes[i];
    assert forall i :: 0 <= i < |b.nodes| ==> d.nodes[..|b.nodes|][i] == d.nodes[i];
  }

  /** Appending an entry to, or finishing, an open node is an extension. */
  lemma TouchTopExtends(s: TraceState, t: TraceState)
    requires Inv(s) && s.stack != []
    requires |t.nodes| >= |s.nodes| && s.snaps <= t.snaps && s.nextId <= t.nextId && s.lineCounter <= t.lineCounter
    requires forall i :: 0 <= i < |s.nodes| && i != TopId(s) - 1 ==> t.nodes[i] == s.nodes[i]
    requires t.nodes[TopId(s) - 1] == s.nodes[TopId(s) - 1].(lines := t.nodes[TopId(s) - 1].lines, endNs := t.nodes[TopId(s) - 1].endNs)
    requires s.nodes[TopId(s) - 1].lines <= t.nodes[TopId(s) - 1].lines
    ensures Extends(s, t)
  {
    var k := TopId(s) - 1;
    assert TopId(s) in s.stack;
    assert s.nodes[k].endNs.None?;
    assert forall i :: 0 <= i < |s.nodes| ==> t.nodes[..|s.nodes|][i] == t.nodes[i];
  }

  lemma CallExtends(c: Config, s: TraceState, f: Frame, now: int, p: Probe)
    requires Inv(s)
    ensures Extends(s, CallStep(c, s, f, now, p))
  {
    var t := CallStep(c, s, f, now, p);
    if s.stack == [] {
      assert t.nodes[..|s.nodes|] == s.nodes;
      ExtendsRefl(s);
    } else {
      TouchTopExtends(s, t);
    }
  }

  lemma LineExtends(c: Config, s: TraceState, f: Frame, p: Probe)
    requires Inv(s)
    ensures Extends(s, LineStep(c, s, f, p))
  {
    var t := LineStep(c, s, f, p);
    if s.stack == [] || c.sampleEvery <= 0 {
      ExtendsRefl(s);
    } else if (s.lineCounter + 1) % c.sampleEvery == 0 {
      TouchTopExtends(s, t);
    } else {
      assert t.nodes == s.nodes;
      ExtendsRefl(s);
    }
  }

  lemma ReturnExtends(c: Config, s: TraceState, f: Frame, now: int, p: Probe)
    requires Inv(s)
    ensures Extends(s, ReturnStep(c, s, f, now, p))
  {
    if s.stack == [] {
      ExtendsRefl(s);
    } else {
      TouchTopExtends(s, ReturnStep(c, s, f, now, p));
    }
  }

  lemma {:induction false} StepExtends(c: Config, s: TraceState, e: Event)
    requires Inv(s)
    ensures Extends(s, Step(c, s, e))
  {
    if !Want(c.filter, e.frame.file) {
      ExtendsRefl(s);
    } else {
      match e.kind {
        case CallEvent => CallExtends(c, s, e.frame, e.now, e.probe);
        case LineEvent => LineExtends(c, s, e.frame, e.probe);
        case ReturnEvent => ReturnExtends(c, s, e.frame, e.now, e.probe);
        case OtherEvent(_) => ExtendsRefl(s);
      }
    }
  }

  /** Over any event sequence the snapshot log is only appended to (earlier
      records never change), nodes are never removed or re-identified, and a
      finished node is never modified again. */
  lemma {:induction false} RunExtends(c: Config, s: TraceState, evs: seq<Event>)
    requires Inv(s)
    ensures Extends(s, Run(c, s, evs))
    decreases |evs|
  {
    if evs == [] {
      ExtendsRefl(s);
    } else {
      var s1 := Step(c, s, evs[0]);
      StepExtends(c, s, evs[0]);
      StepInv(c, s, evs[0]);
      RunExtends(c, s1, evs[1..]);
      ExtendsTrans(s, s1, Run(c, s1, evs[1..]));
    }
  }

  /** A handle stored in the log of a node still resolves to the same record
      after any further events. */
  lemma HandlesStable(c: Config, s: TraceState, evs: seq<Event>, i: nat, k: nat)
    requires Inv(s) && i < |s.nodes| && k < |s.nodes[i].lines| && s.nodes[i].lines[k].snap.Some?
    ensures var t := Run(c, s, evs);
      i < |t.nodes| && k < |t.nodes[i].lines| && t.nodes[i].lines[k] == s.nodes[i].lines[k]
      && s.nodes[i].lines[k].snap.value < |s.snaps| <= |t.snaps|
      && t.snaps[s.nodes[i].lines[k].snap.value] == s.snaps[s.nodes[i].lines[k].snap.value]
  {
    var t := Run(c, s, evs);
    RunExtends(c, s, evs);
    assert Shaped(s.nodes[i]) && Anchored(s.nodes[i], s.snaps);
    assert EntryOk(s.nodes[i].lines[k], s.nodes[i].id, s.snaps);
    var h := s.nodes[i].lines[k].snap.value;
    assert t.snaps[..|s.snaps|][h] == t.snaps[h];
  }

  // ---------------------------------------------------------------------
  // Durations

  /** The clock readings of the events never go backwards, starting no
      earlier than any node already recorded. */
  ghost predicate ClockMonotone(s: TraceState, evs: seq<Event>) {
    (forall i, j :: 0 <= i <= j < |evs| ==> evs[i].now <= evs[j].now)
    && (evs != [] ==> ClockOk(s, evs[0].now))
  }

  lemma StepClock(c: Config, s: TraceState, e: Event, later: int)
    requires Inv(s) && ClockOk(s, e.now) && e.now <= later
    ensures ClockOk(Step(c, s, e), later)
  {
    var t := Step(c, s, e);
    StepExtends(c, s, e);
    forall i | 0 <= i < |t.nodes|
      ensures t.nodes[i].startNs <= later
    {
      if i < |s.nodes| {
        assert t.nodes[..|s.nodes|][i] == t.nodes[i];
      } else {
        assert t == CallStep(c, s, e.frame, e.now, e.probe);
        assert t.nodes[i] == CallNode(s, e.frame, e.now);
      }
    }
  }

  /** With a monotonic clock, every finished node ends no earlier than it
      started, so every duration is non-negative. */
  lemma {:induction false} RunDurations(c: Config, s: TraceState, evs: seq<Event>)
    requires Inv(s) && DurationsOk(s) && ClockMonotone(s, evs)
    ensures DurationsOk(Run(c, s, evs))
    decreases |evs|
  {
    if evs != [] {
      var s1 := Step(c, s, evs[0]);
      StepInv(c, s, evs[0]);
      if |evs| > 1 {
        StepClock(c, s, evs[0], evs[1].now);
      }
      assert ClockMonotone(s1, evs[1..]);
      RunDurations(c, s1, evs[1..]);
    }
  }

  // ---------------------------------------------------------------------
  // Depth

  /** Number of ancestors of the node with id `id`, following parent ids. */
  ghost function Ancestors(nodes: seq<NodeVal>, id: nat): nat
    decreases id
  {
    if 1 <= id <= |nodes| && nodes[id - 1].parent.Some? && nodes[id - 1].parent.value < id
    then 1 + Ancestors(nodes, nodes[id - 1].parent.value)
    else 0
  }

  /** Every node's depth is the number of its ancestors. */
  lemma {:induction false} DepthCountsAncestors(s: TraceState, id: nat)
    requires Inv(s) && 1 <= id <= |s.nodes|
    ensures s.nodes[id - 1].depth == Ancestors(s.nodes, id)
    decreases id
  {
    assert ParentOk(s.nodes, id - 1);
    assert s.nodes[id - 1].id == id;
    if s.nodes[id - 1].parent.Some? {
      DepthCountsAncestors(s, s.nodes[id - 1].parent.value);
    }
  }

  // ---------------------------------------------------------------------
  // Call and return, node by node

  /** An admitted call event: the open parent, if any, gains exactly the
      spacer entry and every other existing node is unchanged; the new node
      has the next id, the top as parent, the stack height as depth, the
      clock reading as start, no end, and a log holding only its definition
      entry, which points at the "call" record appended to the log. */
  lemma CallEffect(c: Config, s: TraceState, f: Frame, now: int, p: Probe)
    ensures var r := CallStep(c, s, f, now, p);
      |r.nodes| == |s.nodes| + 1
      && (forall i :: 0 <= i < |s.nodes| ==>
            r.nodes[i] == if s.stack != [] && i == TopId(s) - 1
                          then s.nodes[i].(lines := s.nodes[i].lines + [Entry(Child, None)])
                          else s.nodes[i])
      && r.nodes[|s.nodes|] == NodeVal(s.nextId, if s.stack == [] then None else Some(TopId(s)),
                                       f.func, f.file, f.firstLine, |s.stack|, now, None,
                                       [Entry(Def(f.firstLine), Some(|s.snaps|))])
      && r.snaps == s.snaps + [MakeSnapshot(c.heapStats, CallSnap, f, s.nextId, f.firstLine, p)]
  {
  }

  /** An admitted return event with a node open: the top node gets the clock
      reading as its end and exactly one "return" entry pointing at the
      record appended to the log; every other node is unchanged and the top
      is popped. (With nothing open the step changes nothing, as `ReturnStep`
      states.) */
  lemma ReturnEffect(c: Config, s: TraceState, f: Frame, now: int, p: Probe)
    requires s.stack != []
    ensures var r := ReturnStep(c, s, f, now, p);
      |r.nodes| == |s.nodes|
      && (forall i :: 0 <= i < |s.nodes| ==>
            r.nodes[i] == if i == TopId(s) - 1
                          then s.nodes[i].(endNs := Some(now), lines := s.nodes[i].lines + [Entry(Return, Some(|s.snaps|))])
                          else s.nodes[i])
      && r.stack == s.stack[..|s.stack| - 1]
      && r.snaps == s.snaps + [MakeSnapshot(c.heapStats, ReturnSnap, f, TopId(s), f.lineno, p)]
  {
  }

  // ---------------------------------------------------------------------
  // Line sampling

  /** A line event in a traced file with a node open and sampling on: the
      run-wide counter advances by one, and a "line" record is appended, with
      an entry in the top node's log, exactly when the new counter value is a
      multiple of the interval. Nothing else changes. */
  lemma LineSampling(c: Config, s: TraceState, f: Frame, p: Probe)
    requires s.stack != [] && c.sampleEvery > 0
    ensures var t := LineStep(c, s, f, p);
      t.lineCounter == s.lineCounter + 1 && t.stack == s.stack && t.nextId == s.nextId
      && (t.snaps != s.snaps <==> t.lineCounter % c.sampleEvery == 0)
      && (t.snaps != s.snaps ==>
            t.snaps == s.snaps + [MakeSnapshot(c.heapStats, LineSnap, f, TopId(s), f.lineno, p)]
            && t.nodes == AppendEntry(s.nodes, TopId(s), Entry(Line(f.lineno), Some(|s.snaps|))))
      && (t.snaps == s.snaps ==> t.nodes == s.nodes)
  {
    var t := LineStep(c, s, f, p);
    if t.lineCounter % c.sampleEvery == 0 {
      assert |t.snaps| == |s.snaps| + 1;
    }
  }

  /** A line event with nothing open, or with sampling off, changes nothing. */
  lemma LineIgnored(c: Config, s: TraceState, f: Frame, p: Probe)
    requires s.stack == [] || c.sampleEvery <= 0
    ensures LineStep(c, s, f, p) == s
  {
  }

  lemma MulAtLeast(k: int, n: int)
    requires k >= 1 && n > 0
    ensures k * n >= n
  {
    assert k * n == (k - 1) * n + n;
    assert (k - 1) * n >= 0;
  }

  lemma DivUnique(a: int, n: int, q: int, r: int)
    requires n > 0 && a == q * n + r && 0 <= r < n
    ensures a / n == q && a % n == r
  {
    var q', r' := a / n, a % n;
    assert a == q' * n + r';
    if q' < q {
      assert (q - q') * n == q * n - q' * n;
      MulAtLeast(q - q', n);
    } else if q' > q {
      assert (q' - q) * n == q' * n - q * n;
      MulAtLeast(q' - q, n);
    }
  }

  lemma DivStep(x: nat, n: int)
    requires n > 0
    ensures (x + 1) / n == x / n + (if (x + 1) % n == 0 then 1 else 0)
  {
    var q, r := x / n, x % n;
    if r + 1 == n {
      assert x + 1 == (q + 1) * n + 0;
      DivUnique(x + 1, n, q + 1, 0);
    } else {
      DivUnique(x + 1, n, q, r + 1);
    }
  }

  /** Events that are all admitted line events. */
  ghost predicate AllTracedLines(c: Config, evs: seq<Event>) {
    forall i :: 0 <= i < |evs| ==> evs[i].kind == LineEvent && Want(c.filter, evs[i].frame.file)
  }

  /** The counter is shared by the whole run: over any run of line events
      with a node open, exactly the events that bring the counter to a
      multiple of N produce records, so a run of K events starting from
      counter value L produces (L + K) / N - L / N of them, however the
      lines are spread over functions. */
  lemma {:induction false} LineRunSampling(c: Config, s: TraceState, evs: seq<Event>)
    requires s.stack != [] && c.sampleEvery > 0 && AllTracedLines(c, evs)
    ensures var t := Run(c, s, evs);
      t.stack == s.stack && t.nextId == s.nextId
      && t.lineCounter == s.lineCounter + |evs|
      && |t.snaps| == |s.snaps| + (s.lineCounter + |evs|) / c.sampleEvery - s.lineCounter / c.sampleEvery
    decreases |evs|
  {
    if evs != [] {
      var s1 := Step(c, s, evs[0]);
      assert s1 == LineStep(c, s, evs[0].frame, evs[0].probe);
      LineSampling(c, s, evs[0].frame, evs[0].probe);
      DivStep(s.lineCounter, c.sampleEvery);
      assert |s1.snaps| == |s.snaps| + (s.lineCounter + 1) / c.sampleEvery - s.lineCounter / c.sampleEvery;
      assert AllTracedLines(c, evs[1..]);
      LineRunSampling(c, s1, evs[1..]);
    }
  }
}

=== FILE: trace_spec.dfy ===
/**
  The trace builder of pyleup.py (the `tracer` callback, lines 151-194, and
  the closure state it updates, lines 96-113) as a state machine over values.

  `TraceState` is the value of the builder's state; `CallStep`, `LineStep`
  and `ReturnStep` are the three event handlers and `Step` is the whole
  callback, filter included. The class `Tracer.TraceBuilder` keeps the same
  state in objects and proves that each of its methods performs exactly
  these steps. `Inv` collects the facts that every reachable state satisfies.
*/
module TraceSpec {
  import opened Wrappers
  import opened PathFilter
  import opened Snapshots

  /** The command-line options the tracer consults. */
  datatype Config = Config(filter: FilterConfig, sampleEvery: int, heapStats: bool)

  /** The label half of a node's event-log entry: the "__child__" spacer,
      "def@<first_line>", an executed line number, or "return". */
  datatype Label = Child | Def(firstLine: int) | Line(lineno: int) | Return

  /** An event-log entry: a label and, except for the spacer, a handle into
      the snapshot log. */
  datatype Entry = Entry(tag: Label, snap: Option<nat>)

  /** The value of a `Node`; `parent` holds the parent's id. */
  datatype NodeVal = NodeVal(
    id: nat,
    parent: Option<nat>,
    name: string,
    file: string,
    firstLine: int,
    depth: nat,
    startNs: int,
    endNs: Option<int>,
    lines: seq<Entry>)

  /** `nodes` (in creation order), `stack` (as node ids, top last),
      `next_id`, `line_counter` and `snaps`. */
  datatype TraceState = TraceState(
    nodes: seq<NodeVal>,
    stack: seq<nat>,
    nextId: nat,
    lineCounter: nat,
    snaps: seq<Snapshot>)

  /** The event names the callback distinguishes; any other name
      ("exception", "opcode", ...) is let through untouched. */
  datatype EventKind = CallEvent | LineEvent | ReturnEvent | OtherEvent(name: string)

  /** One callback invocation with everything it reads from outside:
      the frame, the monotonic clock reading and the snapshot probe. */
  datatype Event = Event(kind: EventKind, frame: Frame, now: int, probe: Probe)

  /** What the callback returns: the tracer itself (keep tracing the frame)
      or None (do not trace it). */
  datatype Decision = Keep | Skip

  /** The state before the first event: ids start at 1, handles at 0. It
      satisfies the invariants. */
  function Initial(): (r: TraceState)
    ensures Inv(r) && DurationsOk(r)
  {
    TraceState([], [], 1, 0, [])
  }

  /** Id of the node on top of the stack (`stack[-1]`). */
  function TopId(s: TraceState): nat
    requires s.stack != []
  {
    s.stack[|s.stack| - 1]
  }

  /** Appends `e` to the event log of the node with id `id`; node ids are
      positions plus one. */
  function AppendEntry(nodes: seq<NodeVal>, id: nat, e: Entry): (r: seq<NodeVal>)
    ensures |r| == |nodes|
    ensures forall i :: 0 <= i < |nodes| && i != id - 1 ==> r[i] == nodes[i]
    ensures 1 <= id <= |nodes| ==> r[id - 1] == nodes[id - 1].(lines := nodes[id - 1].lines + [e])
  {
    if 1 <= id <= |nodes| then nodes[id - 1 := nodes[id - 1].(lines := nodes[id - 1].lines + [e])] else nodes
  }

  /** Sets `end_ns` of the node with id `id`. */
  function SetEnd(nodes: seq<NodeVal>, id: nat, now: int): (r: seq<NodeVal>)
    ensures |r| == |nodes|
    ensures forall i :: 0 <= i < |nodes| && i != id - 1 ==> r[i] == nodes[i]
    ensures 1 <= id <= |nodes| ==> r[id - 1] == nodes[id - 1].(endNs := Some(now))
  {
    if 1 <= id <= |nodes| then nodes[id - 1 := nodes[id - 1].(endNs := Some(now))] else nodes
  }

  /** The node a call creates: the next id, the top as parent, the stack
      height as depth, open, with its definition entry. */
  function CallNode(s: TraceState, f: Frame, now: int): NodeVal {
    NodeVal(s.nextId, if s.stack == [] then None else Some(TopId(s)), f.func, f.file, f.firstLine,
            |s.stack|, now, None, [Entry(Def(f.firstLine), Some(|s.snaps|))])
  }

  /** The node list after the parent, if any, gained its spacer. */
  function CallParents(s: TraceState): seq<NodeVal> {
    if s.stack == [] then s.nodes else AppendEntry(s.nodes, TopId(s), Entry(Child, None))
  }

  /** The "call" record. */
  function CallRecord(c: Config, s: TraceState, f: Frame, p: Probe): Snapshot {
    MakeSnapshot(c.heapStats, CallSnap, f, s.nextId, f.firstLine, p)
  }

  /** An admitted "call" event (lines 159-176): one new open node with the
      next id, pushed, and one new "call" record owned by it; the counter
      is untouched. */
  function CallStep(c: Config, s: TraceState, f: Frame, now: int, p: Probe): (r: TraceState)
    ensures |r.nodes| == |s.nodes| + 1 && r.nodes[|s.nodes|].id == s.nextId && r.nodes[|s.nodes|].endNs.None?
    ensures r.nodes[|s.nodes|].depth == |s.stack| && r.stack == s.stack + [s.nextId]
    ensures r.nextId == s.nextId + 1 && r.lineCounter == s.lineCounter
    ensures |r.snaps| == |s.snaps| + 1 && r.snaps[|s.snaps|].kind == CallSnap && r.snaps[|s.snaps|].nodeId == s.nextId
  {
    TraceState(CallParents(s) + [CallNode(s, f, now)], s.stack + [s.nextId], s.nextId + 1, s.lineCounter,
               s.snaps + [CallRecord(c, s, f, p)])
  }

  /** An admitted "line" event (lines 178-184). */
  function LineStep(c: Config, s: TraceState, f: Frame, p: Probe): (r: TraceState)
    ensures |r.nodes| == |s.nodes| && r.stack == s.stack && r.nextId == s.nextId
    ensures r.lineCounter == if s.stack == [] || c.sampleEvery <= 0 then s.lineCounter else s.lineCounter + 1
    ensures |r.snaps| == if s.stack != [] && c.sampleEvery > 0 && r.lineCounter % c.sampleEvery == 0
                         then |s.snaps| + 1 else |s.snaps|
  {
    if s.stack == [] || c.sampleEvery <= 0 then s
    else
      var counter := s.lineCounter + 1;
      if counter % c.sampleEvery == 0 then
        TraceState(AppendEntry(s.nodes, TopId(s), Entry(Line(f.lineno), Some(|s.snaps|))),
                   s.stack, s.nextId, counter,
                   s.snaps + [MakeSnapshot(c.heapStats, LineSnap, f, TopId(s), f.lineno, p)])
      else
        s.(lineCounter := counter)
  }

  /** An admitted "return" event (lines 186-192). */
  function ReturnStep(c: Config, s: TraceState, f: Frame, now: int, p: Probe): (r: TraceState)
    ensures |r.nodes| == |s.nodes| && r.nextId == s.nextId && r.lineCounter == s.lineCounter
    ensures s.stack == [] ==> r == s
    ensures s.stack != [] ==>
              r.stack == s.stack[..|s.stack| - 1] && |r.snaps| == |s.snaps| + 1
              && r.snaps[|s.snaps|].kind == ReturnSnap && r.snaps[|s.snaps|].nodeId == TopId(s)
    ensures s.stack != [] && 1 <= TopId(s) <= |s.nodes| ==> r.nodes[TopId(s) - 1].endNs == Some(now)
  {
    if s.stack == [] then s
    else
      var t := TopId(s);
      TraceState(AppendEntry(SetEnd(s.nodes, t, now), t, Entry(Return, Some(|s.snaps|))),
                 s.stack[..|s.stack| - 1], s.nextId, s.lineCounter,
                 s.snaps + [MakeSnapshot(c.heapStats, ReturnSnap, f, t, f.lineno, p)])
  }

  /** One invocation of the callback: a refused file or an unhandled event
      kind changes nothing, and no event shrinks the node list, the
      snapshot log, the next id or the counter. */
  function Step(c: Config, s: TraceState, e: Event): (r: TraceState)
    ensures !Want(c.filter, e.frame.file) || e.kind.OtherEvent? ==> r == s
    ensures |s.nodes| <= |r.nodes| && |s.snaps| <= |r.snaps| && s.nextId <= r.nextId && s.lineCounter <= r.lineCounter
  {
    if !Want(c.filter, e.frame.file) then s
    else match e.kind
      case CallEvent => CallStep(c, s, e.frame, e.now, e.probe)
      case LineEvent => LineStep(c, s, e.frame, e.probe)
      case ReturnEvent => ReturnStep(c, s, e.frame, e.now, e.probe)
      case OtherEvent(_) => s
  }

  /** A sequence of invocations: the node list, the snapshot log, the next
      id and the counter only grow. */
  function Run(c: Config, s: TraceState, evs: seq<Event>): (r: TraceState)
    ensures |s.nodes| <= |r.nodes| && |s.snaps| <= |r.snaps| && s.nextId <= r.nextId && s.lineCounter <= r.lineCounter
    decreases |evs|
  {
    if evs == [] then s else Run(c, Step(c, s, evs[0]), evs[1..])
  }

  // ---------------------------------------------------------------------
  // Invariants

  /** `h` is a handle to a record of the given kind and node. */
  ghost predicate Refers(h: Option<nat>, snaps: seq<Snapshot>, kind: SnapKind, id: nat) {
    h.Some? && h.value < |snaps| && snaps[h.value].kind == kind && snaps[h.value].nodeId == id
  }

  /** An entry of node `id`'s log agrees with the record it points to. */
  ghost predicate EntryOk(e: Entry, id: nat, snaps: seq<Snapshot>) {
    match e.tag
    case Child => e.snap.None?
    case Def(l) => Refers(e.snap, snaps, CallSnap, id) && snaps[e.snap.value].lineno == l
    case Line(l) => Refers(e.snap, snaps, LineSnap, id) && snaps[e.snap.value].lineno == l
    case Return => Refers(e.snap, snaps, ReturnSnap, id)
  }

  /** A node's log starts with its definition entry and holds "return"
      only as its last entry, exactly when the node is finished. */
  ghost predicate Shaped(n: NodeVal) {
    |n.lines| > 0 && n.lines[0].tag == Def(n.firstLine)
    && (forall k :: 0 <= k < |n.lines| - 1 ==> !n.lines[k].tag.Return?)
    && (n.endNs.Some? <==> n.lines[|n.lines| - 1].tag.Return?)
  }

  /** Every entry of a node's log points to a record of that node. */
  ghost predicate Anchored(n: NodeVal, snaps: seq<Snapshot>) {
    forall k :: 0 <= k < |n.lines| ==> EntryOk(n.lines[k], n.id, snaps)
  }

  /** The parent of the node at position `i` was created earlier and is one
      level shallower; a node without a parent is at depth 0. */
  ghost predicate ParentOk(nodes: seq<NodeVal>, i: nat)
    requires i < |nodes|
  {
    var n := nodes[i];
    (n.parent.None? ==> n.depth == 0)
    && (n.parent.Some? ==> 1 <= n.parent.value <= i && nodes[n.parent.value - 1].depth + 1 == n.depth)
  }

  /** The stack holds existing nodes, oldest first; depth is stack position
      and the parent is the entry below. */
  ghost predicate StackOk(nodes: seq<NodeVal>, stack: seq<nat>) {
    (forall i :: 0 <= i < |stack| ==> 1 <= stack[i] <= |nodes|)
    && (forall i, j :: 0 <= i < j < |stack| ==> stack[i] < stack[j])
    && (forall i :: 0 <= i < |stack| ==> nodes[stack[i] - 1].depth == i)
    && (forall i :: 0 <= i < |stack| ==>
          nodes[stack[i] - 1].parent == if i == 0 then None else Some(stack[i - 1]))
  }

  /** Node ids are creation positions plus one. */
  ghost predicate IdsOk(nodes: seq<NodeVal>) {
    forall i :: 0 <= i < |nodes| ==> nodes[i].id == i + 1
  }

  ghost predicate ParentsOk(nodes: seq<NodeVal>) {
    forall i :: 0 <= i < |nodes| ==> ParentOk(nodes, i)
  }

  /** Shapes and anchors of all logs. */
  ghost predicate LogsOk(nodes: seq<NodeVal>, snaps: seq<Snapshot>) {
    forall i :: 0 <= i < |nodes| ==> Shaped(nodes[i]) && Anchored(nodes[i], snaps)
  }

  /** A node is open exactly while it is on the stack. */
  ghost predicate OpenOnStack(nodes: seq<NodeVal>, stack: seq<nat>) {
    forall i :: 0 <= i < |nodes| ==> (nodes[i].endNs.None? <==> i + 1 in stack)
  }

  /** Every record belongs to an existing node. */
  ghost predicate Owned(snaps: seq<Snapshot>, nextId: nat) {
    forall h :: 0 <= h < |snaps| ==> 1 <= snaps[h].nodeId < nextId
  }

  ghost predicate Consistent(nodes: seq<NodeVal>, stack: seq<nat>, nextId: nat, snaps: seq<Snapshot>) {
    nextId == |nodes| + 1 && IdsOk(nodes) && ParentsOk(nodes) && LogsOk(nodes, snaps)
    && OpenOnStack(nodes, stack) && StackOk(nodes, stack) && Owned(snaps, nextId)
  }

  /** The invariant of every reachable state (the line counter is free). */
  ghost predicate Inv(s: TraceState) {
    Consistent(s.nodes, s.stack, s.nextId, s.snaps)
  }

  /** Finished nodes did not end before they started. */
  ghost predicate DurationsOk(s: TraceState) {
    forall i :: 0 <= i < |s.nodes| && s.nodes[i].endNs.Some? ==> s.nodes[i].startNs <= s.nodes[i].endNs.value
  }

  /** The clock reading `now` is no earlier than any recorded start. */
  ghost predicate ClockOk(s: TraceState, now: int) {
    forall i :: 0 <= i < |s.nodes| ==> s.nodes[i].startNs <= now
  }

  lemma EntryOkGrows(e: Entry, id: nat, snaps: seq<Snapshot>, more: seq<Snapshot>)
    requires EntryOk(e, id, snaps)
    ensures EntryOk(e, id, snaps + more)
  {
    if e.snap.Some? {
      assert (snaps + more)[e.snap.value] == snaps[e.snap.value];
    }
  }

  lemma AnchoredGrows(n: NodeVal, snaps: seq<Snapshot>, more: seq<Snapshot>)
    requires Anchored(n, snaps)
    ensures Anchored(n, snaps + more)
  {
    forall k | 0 <= k < |n.lines|
      ensures EntryOk(n.lines[k], n.id, snaps + more)
    {
      EntryOkGrows(n.lines[k], n.id, snaps, more);
    }
  }

  lemma AnchoredAppend(n: NodeVal, e: Entry, snaps: seq<Snapshot>)
    requires Anchored(n, snaps) && EntryOk(e, n.id, snaps)
    ensures Anchored(n.(lines := n.lines + [e]), snaps)
  {
    var n' := n.(lines := n.lines + [e]);
    forall k | 0 <= k < |n'.lines|
      ensures EntryOk(n'.lines[k], n'.id, snaps)
    {
      if k < |n.lines| {
        assert n'.lines[k] == n.lines[k];
      }
    }
  }

  /** Appending a non-"return" entry to an open node keeps its shape. */
  lemma ShapedAppend(n: NodeVal, e: Entry)
    requires Shaped(n) && n.endNs.None? && !e.tag.Return?
    ensures Shaped(n.(lines := n.lines + [e]))
  {
    var n' := n.(lines := n.lines + [e]);
    assert n'.lines[0] == n.lines[0];
    forall k | 0 <= k < |n'.lines| - 1
      ensures !n'.lines[k].tag.Return?
    {
      assert n'.lines[k] == n.lines[k];
    }
  }

  /** Finishing an open node with a "return" entry keeps its shape. */
  lemma ShapedFinish(n: NodeVal, now: int, e: Entry)
    requires Shaped(n) && n.endNs.None? && e.tag.Return?
    ensures Shaped(n.(endNs := Some(now), lines := n.lines + [e]))
  {
    var n' := n.(endNs := Some(now), lines := n.lines + [e]);
    assert n'.lines[0] == n.lines[0];
    forall k | 0 <= k < |n'.lines| - 1
      ensures !n'.lines[k].tag.Return?
    {
      assert n'.lines[k] == n.lines[k];
    }
  }
}

=== FILE: tracer.dfy ===
/**
  The trace builder of pyleup.py as the program keeps it: `Node` objects
  (lines 96-107) shared between the `nodes` list and the `stack`, the
  closure state of lines 109-113 gathered in one `TraceBuilder` object, and
  the `tracer` callback (lines 151-194) and `take_snapshot` (lines 117-149)
  as its methods. Every method is proved to perform exactly the step that
  `TraceSpec` defines on the builder's value `State()`, and to keep
  `Valid()`, which ties the objects to that value.
*/
module Tracer {
  import opened Wrappers
  import opened PathFilter
  import opened Snapshots
  import opened TraceSpec
  import opened TraceProofs
  import opened Report

  /** One traced activation. Only `endNs` and `lines` change after creation. */
  class Node {
    const id: nat
    const parent: Node?
    const name: string
    const file: string
    const firstLine: int
    const depth: nat
    const startNs: int
    var endNs: Option<int>
    var lines: seq<Entry>

    constructor (id: nat, parent: Node?, name: string, file: string, firstLine: int, depth: nat, startNs: int)
      ensures this.id == id && this.parent == parent && this.name == name && this.file == file
      ensures this.firstLine == firstLine && this.depth == depth && this.startNs == startNs
      ensures endNs == None && lines == []
    {
      this.id := id;
      this.parent := parent;
      this.name := name;
      this.file := file;
      this.firstLine := firstLine;
      this.depth := depth;
      this.startNs := startNs;
      this.endNs := None;
      this.lines := [];
    }
  }

  /** The value of a node; the parent is named by its id. */
  ghost function ValOf(n: Node): NodeVal
    reads n
  {
    NodeVal(n.id, if n.parent == null then None else Some(n.parent.id), n.name, n.file, n.firstLine,
            n.depth, n.startNs, n.endNs, n.lines)
  }

  ghost function Vals(ns: seq<Node>): (r: seq<NodeVal>)
    reads ns
    ensures |r| == |ns| && forall i {:trigger r[i]} :: 0 <= i < |ns| ==> r[i] == ValOf(ns[i])
  {
    seq(|ns|, i requires 0 <= i < |ns| reads ns => ValOf(ns[i]))
  }

  ghost function Ids(ns: seq<Node>): (r: seq<nat>)
    ensures |r| == |ns| && forall i {:trigger r[i]} :: 0 <= i < |ns| ==> r[i] == ns[i].id
  {
    seq(|ns|, i requires 0 <= i < |ns| => ns[i].id)
  }

  class TraceBuilder {
    const config: Config
    var nodes: seq<Node>
    var stack: seq<Node>
    var nextId: nat
    var lineCounter: nat
    var snaps: seq<Snapshot>

    /** The builder's state as a value. */
    ghost function State(): TraceState
      reads this, nodes
    {
      TraceState(Vals(nodes), Ids(stack), nextId, lineCounter, snaps)
    }

    /** The objects agree with the positions their ids name (see
        `LinkedSeqs`). */
    ghost predicate Linked()
      reads this
    {
      LinkedSeqs(nodes, stack)
    }

    /** The objects are linked, parents included, and their value satisfies
        the invariant. */
    ghost predicate Valid()
      reads this, nodes
    {
      Linked() && ParentsLinked(nodes) && Inv(State())
    }

    /** The node on top of the stack, the only node a step may change. */
    ghost function TopSet(): set<Node>
      reads this
    {
      if stack == [] then {} else {stack[|stack| - 1]}
    }

    /** The closure state of lines 109-113 before tracing starts. */
    constructor (config: Config)
      ensures Valid() && DurationsOk(State()) && this.config == config
      ensures State() == Initial()
      ensures nodes == [] && stack == []
    {
      this.config := config;
      nodes := [];
      stack := [];
      nextId := 1;
      lineCounter := 0;
      snaps := [];
      new;
      assert State() == Initial();
    }

    /** `take_snapshot` (lines 117-149): appends one record and returns its
        index. */
    method TakeSnapshot(kind: SnapKind, f: Frame, nodeId: nat, lineno: int, p: Probe) returns (idx: nat)
      modifies this`snaps
      ensures snaps == old(snaps) + [MakeSnapshot(config.heapStats, kind, f, nodeId, lineno, p)]
      ensures idx == |old(snaps)| && snaps[idx].nodeId == nodeId
    {
      snaps := snaps + [MakeSnapshot(config.heapStats, kind, f, nodeId, lineno, p)];
      idx := |snaps| - 1;
    }

    /** The callback `tracer` (lines 151-194): an event from an unwanted file
        is refused and changes nothing; otherwise the branch for the event's
        kind runs, and every kind but "call", "line" and "return" is kept
        without a change. Each event performs `Step` on the state and keeps
        the invariant; with a clock that does not run backwards, durations
        stay non-negative. */
    method Trace(e: Event) returns (d: Decision)
      requires Valid()
      modifies this, TopSet()
      ensures d == Keep <==> Want(config.filter, e.frame.file)
      ensures Valid() && State() == Step(config, old(State()), e)
      ensures DurationsOk(old(State())) && ClockOk(old(State()), e.now) ==> DurationsOk(State())
      ensures d == Skip ==> unchanged(this)
    {
      if !Want(config.filter, e.frame.file) {
        return Skip;
      }
      match e.kind {
        case CallEvent => TraceCall(e.frame, e.now, e.probe);
        case LineEvent => TraceLine(e.frame, e.probe);
        case ReturnEvent => TraceReturn(e.frame, e.now, e.probe);
        case OtherEvent(_) =>
      }
      d := Keep;
    }

    /** An admitted "call" event: the call branch performs `CallStep` and
        keeps `Valid()`. */
    method TraceCall(f: Frame, now: int, p: Probe)
      requires Valid()
      modifies this, TopSet()
      ensures Valid() && State() == CallStep(config, old(State()), f, now, p)
      ensures DurationsOk(old(State())) ==> DurationsOk(State())
    {
      ghost var ns, st := nodes, stack;
      CallStepInv(config, State(), f, now, p);
      OnCall(f, now, p);
      PushParent(ns, st, nodes[|ns|]);
    }

    /** An admitted "line" event: the line branch performs `LineStep` and
        keeps `Valid()`. */
    method TraceLine(f: Frame, p: Probe)
      requires Valid()
      modifies this`lineCounter, this`snaps, TopSet()
      ensures Valid() && State() == LineStep(config, old(State()), f, p)
      ensures DurationsOk(old(State())) ==> DurationsOk(State())
    {
      LineStepInv(config, State(), f, p);
      OnLine(f, p);
    }

    /** An admitted "return" event: the return branch performs `ReturnStep`
        and keeps `Valid()`; with a clock no earlier than any start, no
        finished node ends before it started. */
    method TraceReturn(f: Frame, now: int, p: Probe)
      requires Valid()
      modifies this`stack, this`snaps, TopSet()
      ensures Valid() && State() == ReturnStep(config, old(State()), f, now, p)
      ensures DurationsOk(old(State())) && ClockOk(old(State()), now) ==> DurationsOk(State())
    {
      ReturnStepInv(config, State(), f, now, p);
      OnReturn(f, now, p);
    }

    /** `stack[-1].lines.append(e)`: only the top node's log changes. */
    method AppendTop(e: Entry)
      requires Linked() && stack != []
      modifies TopSet()
      ensures Vals(nodes) == AppendEntry(old(Vals(nodes)), stack[|stack| - 1].id, e)
    {
      var top := stack[|stack| - 1];
      ghost var vs := Vals(nodes);
      top.lines := top.lines + [e];
      forall i | 0 <= i < |nodes|
        ensures Vals(nodes)[i] == AppendEntry(vs, top.id, e)[i]
      {
        if i != top.id - 1 {
          assert nodes[i].id == i + 1 && nodes[i] != top;
          assert vs[i] == old(ValOf(nodes[i]));
        }
      }
    }

    /** `stack[-1].end_ns = now`: only the top node's end time changes. */
    method SetTopEnd(now: int)
      requires Linked() && stack != []
      modifies TopSet()
      ensures Vals(nodes) == SetEnd(old(Vals(nodes)), stack[|stack| - 1].id, now)
    {
      var top := stack[|stack| - 1];
      ghost var vs := Vals(nodes);
      top.endNs := Some(now);
      forall i | 0 <= i < |nodes|
        ensures Vals(nodes)[i] == SetEnd(vs, top.id, now)[i]
      {
        if i != top.id - 1 {
          assert nodes[i].id == i + 1 && nodes[i] != top;
          assert vs[i] == old(ValOf(nodes[i]));
        }
      }
    }

    /** The "call" branch (lines 159-176): a new node with the next id, the
        current top as parent and the stack length as depth; the parent's
        log gains the spacer; the node is recorded, pushed, and its log
        starts with the definition entry pointing at a fresh "call" record. */
    method OnCall(f: Frame, now: int, p: Probe)
      requires Linked() && nextId == |nodes| + 1
      modifies this, TopSet()
      ensures Linked() && State() == CallStep(config, old(State()), f, now, p)
      ensures |nodes| == |old(nodes)| + 1 && nodes == old(nodes) + [nodes[|old(nodes)|]]
      ensures fresh(nodes[|old(nodes)|]) && stack == old(stack) + [nodes[|old(nodes)|]]
      ensures nodes[|old(nodes)|].parent == if old(stack) == [] then null else old(stack)[|old(stack)| - 1]
    {
      ghost var s := State();
      var parent: Node? := if |stack| > 0 then stack[|stack| - 1] else null;
      assert parent != null ==> TopId(s) == parent.id;
      assert CallParents(s) == if parent == null then s.nodes else AppendEntry(s.nodes, parent.id, Entry(Child, None));
      var n := new Node(nextId, parent, f.func, f.file, f.firstLine, |stack|, now);
      nextId := nextId + 1;
      if parent != null {
        AppendTop(Entry(Child, None));
      }
      assert Vals(nodes) == CallParents(s);
      Enter(n, f, p);
      assert ValOf(n) == CallNode(s, f, now);
      assert Ids(stack) == s.stack + [s.nextId];
    }

    /** The rest of the "call" branch (lines 172-175): the new node is
        recorded and pushed, a "call" record is taken and the node's log
        starts with the definition entry pointing at it. */
    method Enter(n: Node, f: Frame, p: Probe)
      requires Linked() && n.id == |nodes| + 1 && n !in nodes && n.lines == []
      requires n.parent == if stack == [] then null else stack[|stack| - 1]
      modifies this`nodes, this`stack, this`snaps, n
      ensures Linked() && nodes == old(nodes) + [n] && stack == old(stack) + [n]
      ensures Vals(nodes) == old(Vals(nodes)) + [ValOf(n)]
      ensures Ids(stack) == old(Ids(stack)) + [n.id]
      ensures n.lines == [Entry(Def(n.firstLine), Some(|old(snaps)|))] && n.endNs == old(n.endNs)
      ensures snaps == old(snaps) + [MakeSnapshot(config.heapStats, CallSnap, f, n.id, n.firstLine, p)]
    {
      PushLinked(nodes, stack, n);
      nodes := nodes + [n];
      stack := stack + [n];
      var idx := TakeSnapshot(CallSnap, f, n.id, n.firstLine, p);
      n.lines := n.lines + [Entry(Def(n.firstLine), Some(idx))];
      forall i | 0 <= i < |nodes| - 1
        ensures Vals(nodes)[i] == old(Vals(nodes))[i]
      {
        assert nodes[i] == old(nodes)[i] && nodes[i] != n;
      }
    }

    /** The "line" branch (lines 178-184): with a frame open and sampling
        on, the counter advances, and every `sampleEvery`-th line appends a
        line entry to the top node's log pointing at a fresh "line" record.
        No node is created or closed. */
    method OnLine(f: Frame, p: Probe)
      requires Linked()
      modifies this`lineCounter, this`snaps, TopSet()
      ensures Linked() && State() == LineStep(config, old(State()), f, p)
    {
      ghost var s := State();
      if |stack| > 0 && config.sampleEvery > 0 {
        lineCounter := lineCounter + 1;
        if lineCounter % config.sampleEvery == 0 {
          var idx := TakeSnapshot(LineSnap, f, stack[|stack| - 1].id, f.lineno, p);
          assert Ids(stack)[|stack| - 1] == TopId(s);
          assert Vals(nodes) == s.nodes;
          AppendTop(Entry(Line(f.lineno), Some(idx)));
        } else {
          assert Vals(nodes) == s.nodes;
        }
      }
    }

    /** The "return" branch (lines 186-192): with a frame open, a "return"
        record is taken, the top node gets its end time and a return entry
        pointing at that record, and it is popped. */
    method OnReturn(f: Frame, now: int, p: Probe)
      requires Linked()
      modifies this`stack, this`snaps, TopSet()
      ensures Linked() && State() == ReturnStep(config, old(State()), f, now, p)
      ensures nodes == old(nodes)
      ensures stack == if old(stack) == [] then old(stack) else old(stack)[..|old(stack)| - 1]
    {
      ghost var s := State();
      if |stack| > 0 {
        var idx := TakeSnapshot(ReturnSnap, f, stack[|stack| - 1].id, f.lineno, p);
        SetTopEnd(now);
        AppendTop(Entry(Return, Some(idx)));
        assert Ids(stack)[|stack| - 1] == TopId(s);
        stack := stack[..|stack| - 1];
        assert Ids(stack) == s.stack[..|s.stack| - 1];
        PopLinked(nodes, old(stack));
      }
    }

    /** The row loop of lines 206-217: one row per node, in creation order. */
    method AssembleRows() returns (rows: seq<Row>)
      ensures rows == Rows(Vals(nodes))
    {
      rows := [];
      var i := 0;
      while i < |nodes|
        invariant 0 <= i <= |nodes|
        invariant rows == Rows(Vals(nodes))[..i]
      {
        var n := nodes[i];
        var end := if n.endNs.Some? && n.endNs.value != 0 then n.endNs.value else n.startNs;
        rows := rows + [Row(n.id, n.name, n.file, n.firstLine, n.depth, end - n.startNs, n.lines)];
        i := i + 1;
      }
    }
  }

  /** The objects agree with the positions their ids name: node `i` has id
      `i + 1`, and every stack entry is the node at the position its id
      names. Only constant fields are involved. */
  ghost predicate LinkedSeqs(nodes: seq<Node>, stack: seq<Node>) {
    (forall i :: 0 <= i < |nodes| ==> nodes[i].id == i + 1)
    && (forall i :: 0 <= i < |stack| ==> 1 <= stack[i].id <= |nodes| && nodes[stack[i].id - 1] == stack[i])
  }

  /** Every parent reference is the recorded node its id names. */
  ghost predicate ParentsLinked(nodes: seq<Node>) {
    forall i {:trigger nodes[i].parent} :: 0 <= i < |nodes| && nodes[i].parent != null ==>
      1 <= nodes[i].parent.id <= |nodes| && nodes[nodes[i].parent.id - 1] == nodes[i].parent
  }

  lemma PushLinked(nodes: seq<Node>, stack: seq<Node>, n: Node)
    requires LinkedSeqs(nodes, stack) && n.id == |nodes| + 1
    requires n.parent == if stack == [] then null else stack[|stack| - 1]
    ensures LinkedSeqs(nodes + [n], stack + [n])
  {
  }

  lemma PushParent(nodes: seq<Node>, stack: seq<Node>, n: Node)
    requires LinkedSeqs(nodes, stack) && ParentsLinked(nodes)
    requires n.parent == if stack == [] then null else stack[|stack| - 1]
    ensures ParentsLinked(nodes + [n])
  {
  }

  lemma PopLinked(nodes: seq<Node>, stack: seq<Node>)
    requires LinkedSeqs(nodes, stack) && stack != []
    ensures LinkedSeqs(nodes, stack[..|stack| - 1])
  {
  }

  /** The stack as objects: every entry is a recorded node, the entry at
      position `i` has depth `i`, the bottom entry has no parent, and each
      other entry's parent is the very object below it. */
  lemma {:induction false} StackShape(b: TraceBuilder)
    requires b.Valid()
    ensures forall i :: 0 <= i < |b.stack| ==> b.stack[i] in b.nodes && b.stack[i].depth == i
    ensures |b.stack| > 0 ==> b.stack[0].parent == null
    ensures forall i :: 0 < i < |b.stack| ==> b.stack[i].parent == b.stack[i - 1]
  {
    var s := b.State();
    forall i | 0 <= i < |b.stack|
      ensures b.stack[i] in b.nodes && b.stack[i].depth == i
      ensures i == 0 ==> b.stack[i].parent == null
      ensures i > 0 ==> b.stack[i].parent == b.stack[i - 1]
    {
      var k := b.stack[i].id - 1;
      assert s.stack[i] == b.stack[i].id;
      assert b.nodes[k] == b.stack[i];
      assert s.nodes[k] == ValOf(b.stack[i]);
      if i > 0 {
        assert s.stack[i - 1] == b.stack[i - 1].id;
        assert b.nodes[b.stack[i - 1].id - 1] == b.stack[i - 1];
      }
    }
  }
}

=== FILE: wrappers.dfy ===
/** Optional values: the model's rendering of Python's `None`. */
module Wrappers {

  datatype Option<+T> = None | Some(value: T)
}
